=== FILE: README.md ===
# fluxclient robot console and `flux robot` target handling, in Dafny

This project models two pieces of the fluxclient robot tooling as pure
functions, and proves properties about them.

- **`RobotConsole`** (fluxclient/robot_console.py) is the operator console.
  - One operator line plus the current session (mode, raw socket, poller
    thread) gives a new session, an explicit list of effects, and an outcome.
  - The effects are robot-client calls, log lines, caught `RuntimeError`s,
    raw socket writes, socket hold/release, mode flips and poller start/join.
  - The outcome says whether `on_cmd` returned or an exception escaped it.
  - The robot client is a parameter (`Console.Device`): it answers each call
    with a value or an exception.
- **`flux robot`** (fluxclient/commands/robot.py) covers:
  - serial detection, `host[:port]` parsing and address selection;
  - target resolution and `do_kill`. Discovery, authentication, launch and
    the kill call are a parameter (`RobotCli.Upnp`) that says which of
    them raises;
  - the receiver that copies the robot connection into the console log,
    as a fold over a finite sequence of reads;
  - the choice of front end and how `main` ends.

Files:

- `runtime.dfy` (`Runtime`): optional values, the exception kinds the console
  tells apart, and call results.
- `text.dfy` (`Text`): the Python string operations used:
  - `split(" ", 1)` and `split(sep)`;
  - `shlex.split` as a quote-free whitespace tokenizer;
  - `rstrip()` and `strip(chars)`;
  - POSIX `os.path.join`;
  - `int()` on digit strings.
- `console.dfy` (`Console`): the session state, the verb tables, the handlers
  and `on_cmd`.
- `console_props.dfy` (`ConsoleProperties`): properties of whole command
  lines and of line sequences.
- `robot_cli.dfy` (`RobotCli`): the command-line module.

Modelling choices:

- `shlex.split` splits on space, tab, CR and LF, and has no quoting.
- Exceptions other than `RuntimeError` are not ruled out by preconditions.
  They escape `on_cmd` as the outcome `Crash(exc)`:
  - a verb given the wrong number of arguments is a `TypeError`;
  - an argument with no token is an `IndexError`;
  - a non-`RuntimeError` raised by the robot client escapes as itself.

## Model

| member | source | states |
|---|---|---|
| Text.SplitOnce | fluxclient/robot_console.py:61-62 | `split(" ", 1)` gives one part exactly when the line has no space. Otherwise it gives the text before the first space and the rest, which glue back into the line. |
| Text.SplitOnceAt | fluxclient/robot_console.py:61-62 | A space-free verb, a space and any rest split back into exactly that verb and that rest. |
| Text.Split | fluxclient/robot_console.py:192 | `split(" ")` keeps empty pieces. No piece contains the separator, the pieces joined with it give back the input, and there is one more piece than separators. |
| Text.SplitPair | fluxclient/commands/robot.py:14 | A string with one separator between two separator-free parts splits into exactly those two parts. |
| Text.Tokens | fluxclient/robot_console.py:80 | Every token `shlex.split` yields is a non-empty run of non-blank characters. |
| Text.TokensUnwords | fluxclient/robot_console.py:80 | Tokenizing words joined by single spaces gives back the words. |
| Text.TokensEmpty | fluxclient/robot_console.py:80 | A string has no tokens exactly when every character is blank. This is the case where `shlex.split(path)[0]` fails. |
| Text.FirstTokenAt | fluxclient/robot_console.py:80 | The first token `shlex.split` yields is the whitespace-free run right after the leading whitespace, ending at whitespace or at the end of the string. |
| Text.TrimEnd | fluxclient/robot_console.py:168 | `rstrip()` gives a prefix of the input that does not end in whitespace. Everything it removed is whitespace. |
| Text.Strip | fluxclient/commands/robot.py:61 | `strip("\x00")` gives a contiguous slice. Everything before and after the slice is a dropped character, and the slice neither starts nor ends with one. |
| Text.PathJoin | fluxclient/robot_console.py:94-96 | `os.path.join` always ends with the entry name. A relative name is appended to the directory: directly when the directory is empty or ends in `/` (as for `ls SD/`), otherwise with one `/` between them. An absolute name replaces the directory. |
| Text.ParseNumeral | fluxclient/commands/robot.py:15 | `int(port)` succeeds exactly on non-empty strings of ASCII digits. |
| Text.NumeralRoundTrip | fluxclient/commands/robot.py:15 | Parsing the decimal rendering of a number gives the number back. |
| Console.ResolveListing | fluxclient/robot_console.py:81-90 | `ls` accepts exactly `SD`, any `SD/…`, `USB` and `USB/`. SD paths map to the text after `SD/`, and both USB forms map to the USB root. |
| Console.ResolveEntry | fluxclient/robot_console.py:101-107 | `select`, `fileinfo` and the `cp` source accept exactly `SD/…` and `USB/…`. The path is the backend name, a slash and the resolved relative path. |
| Console.FirstToken | fluxclient/robot_console.py:80 | `shlex.split(path)[0]` raises `IndexError` exactly when the argument is all whitespace. Otherwise it is the first whitespace-free run of the argument, taken whole. |
| Console.SimpleCmd | fluxclient/robot_console.py:76-77 | `simple_cmd` makes exactly one call and logs the reply as its last effect. It raises exactly when the robot client raises, with the client's exception. |
| Console.CallOnly | fluxclient/robot_console.py:103 | A call whose reply is discarded (the second `select_sd_file`, `upload_file`) makes exactly one call and logs nothing. It raises exactly when the robot client raises, with the client's exception. |
| Console.ListFile | fluxclient/robot_console.py:79-97 | No token is an `IndexError`. A rejected path raises `NOT_FOUND` with no call. An accepted path makes one listing call. The handler finishes exactly when that call returns, and then logs one line per entry in order, then `ls done.`. If the call raises, that exception escapes after the call alone. |
| Console.NodeLine | fluxclient/robot_console.py:93-96 | An entry's line starts with `DIR ` exactly for a directory and with `FILE ` exactly for a file, and ends with the entry's name. |
| Console.NodeLineUnder | fluxclient/robot_console.py:94-96 | For a relative entry name, the line is the tag followed by the listed path. Under a path without a trailing `/` it is exactly the tag, the path, one `/` and the name. |
| Console.SelectFile | fluxclient/robot_console.py:99-107 | `SD/…` calls `select_sd_file` twice (once if the first raises). `USB/…` calls `select_usb_file` once. The first call's reply is logged right after it, the handler finishes exactly when that call returns, and otherwise the client's exception escapes after the call alone. Anything else raises `NOT_FOUND`/`BAD_ENTRY` with no call. |
| Console.FileInfo | fluxclient/robot_console.py:109-117 | `SD/…` calls `sd_fileinfo` and then `select_sd_file` on the same path. `USB/…` calls `usb_fileinfo`. The info reply is logged right after its call, and a failing info call escapes with its own exception and nothing else. On USB the handler finishes exactly when the info call returns; on SD exactly when both calls return, and a failing select escapes with its exception. Anything else raises `NOT_FOUND`/`BAD_ENTRY`. |
| Console.SdOnlyCmd | fluxclient/robot_console.py:119-138 | `mkdir`/`rmdir`/`rmfile` call the robot client exactly when the path starts with `SD/`, with the path minus that prefix. The handler then finishes exactly when the call returns, logging its reply, and otherwise the client's exception escapes. A path off SD raises `NOT_SUPPORT`/`SD_ONLY` with no call. |
| Console.CopyFile | fluxclient/robot_console.py:140-159 | A token count other than 2 raises `BAD_PARAMS`. The source is checked before the target: a bad source gives `BAD_ENTRY` and a non-SD target gives `SD_ONLY`. A call happens only in the valid case, and it is exactly one `cpfile(srcBackend, srcRel, SD, dstRel)`. The handler then finishes exactly when the call returns, logging its reply. A `ValueError` from the call becomes `BAD_PARAMS`, and any other exception escapes as itself. |
| Console.UploadCmd | fluxclient/robot_console.py:161-164 | `upload` makes one ordinary upload call, of the first token. It finishes exactly when that call returns, and otherwise raises the call's exception. |
| Console.UpdateFwCmd | fluxclient/robot_console.py:166-169 | `update_fw` makes one firmware upload call. Its file name is the argument with all trailing whitespace removed: a prefix of the argument, everything cut is whitespace, and the name does not end in whitespace. It finishes exactly when the call returns, and otherwise raises the call's exception. |
| Console.CaptureCmd | fluxclient/robot_console.py:171-189 | `oneshot`/`scanimages` make one capture call. The images are shown exactly when the capture returns. A failing capture escapes with the client's own exception. |
| Console.SetCmd | fluxclient/robot_console.py:191-198 | `BAD_PARAMS` is logged, with no call, exactly when the line does not split on single spaces into two parts. Otherwise the call is `set_setting(key, value)` with the parts around the space; it finishes exactly when the call returns, logging its reply. Only the robot client's own exception can escape. |
| Console.Absorb | fluxclient/robot_console.py:64-74 | The session is unchanged. A `RuntimeError` is logged with its arguments right after the handler's effects, and the step continues. Any other exception escapes as itself, with only the handler's effects. A handler that finishes keeps exactly its effects. |
| Console.EnterRaw | fluxclient/robot_console.py:200-208 | On success the session holds the new socket in raw mode with a poller. The socket is held before the mode flips. If `raw_mode()` raises, the session is unchanged: a `RuntimeError` is logged after the call, and anything else escapes. |
| Console.QuitRaw | fluxclient/robot_console.py:210-217 | Leaving raw mode always ends in standard mode with no socket. The first effects are the mode flip and then the socket release. With a socket held, the full effect list follows: the poller is joined if one runs, `quit` is written on the old socket, the reply is read, and it is logged when it arrives. The shell continues exactly when the reply arrives; otherwise the reply's exception escapes, even a `RuntimeError`. With no socket held, the step is an `AttributeError`. |
| Console.Dispatch | fluxclient/robot_console.py:67-69 | A one-argument verb with no argument, and `raw` with one, are a `TypeError` with no effect. A one-argument verb runs its handler inside the guard. `raw` alone enters raw mode. `oneshot`/`scanimages` capture whether or not an argument was given. |
| Console.OnCmd | fluxclient/robot_console.py:54-74 | In raw mode every line but `quit` is written on the socket with a newline, and nothing else changes. Raw `quit` returns to standard mode. A standard-mode state change happens only on `raw`. An unknown verb logs exactly `Unknow Command Q`. The session invariant is preserved. |
| Console.Run | fluxclient/robot_console.py:54-74 | Feeding a sequence of lines keeps the session invariant: the socket is held exactly in raw mode. |
| ConsoleProperties.RawQuitOrdering | fluxclient/robot_console.py:210-216 | Raw `quit` flips the mode, then drops the socket, then joins the poller, and only then writes `quit` on the socket that was held. These are exactly the first four effects, and no later effect is a raw write. |
| ConsoleProperties.RawQuitStep | fluxclient/robot_console.py:210-217 | The complete step of raw `quit` after raw entry: flip, drop, join, write `quit`, then read and log the reply. |
| ConsoleProperties.RawEntry | fluxclient/robot_console.py:200-207 | `raw` takes the socket, then flips the mode, then starts the poller. It leaves a valid raw session. |
| ConsoleProperties.RawEntryStep | fluxclient/robot_console.py:200-208 | The complete step of `raw` when a socket is obtained: the call, hold the socket, flip to raw, start the poller, log `raw mode ->`. |
| ConsoleProperties.RawPassthrough | fluxclient/robot_console.py:55-59 | In raw mode a line that starts with a known verb is not looked up. It is written to the socket and makes no robot-client call. |
| ConsoleProperties.CommandQuiet | fluxclient/robot_console.py:79-198 | The one-argument handlers only call the robot client and log. They never touch the mode, the socket or the poller. |
| ConsoleProperties.AbsorbContained | fluxclient/robot_console.py:64-74 | When a handler only calls and logs, the guarded step writes nothing raw, and a caught `RuntimeError` is its last effect and leaves the session unchanged. |
| ConsoleProperties.DispatchStep | fluxclient/robot_console.py:67-74 | A structured verb changes the session only when it is `raw` with no argument and a socket is obtained. It writes nothing raw, and a caught `RuntimeError` comes last. |
| ConsoleProperties.StandardStep | fluxclient/robot_console.py:60-74 | In standard mode there is no raw write. The state changes only on `raw` with a socket obtained. A caught `RuntimeError` is the last effect and leaves the session unchanged. |
| ConsoleProperties.VerbFacts | fluxclient/robot_console.py:38-52 | Structured verbs contain no space and are not in the simple table. |
| ConsoleProperties.SimpleVerbFacts | fluxclient/robot_console.py:19-36 | Simple verbs contain no space and are not in the structured table. |
| ConsoleProperties.TablesDisjoint | fluxclient/robot_console.py:19-52 | The two verb tables share no verb. |
| ConsoleProperties.VerbLine | fluxclient/robot_console.py:61-69 | `verb arg` reaches the structured handler with the whole rest of the line as its single argument. |
| ConsoleProperties.BareVerb | fluxclient/robot_console.py:61-69 | A bare structured verb reaches its handler with no argument. |
| ConsoleProperties.UnaryLine | fluxclient/robot_console.py:61-74 | `verb arg` for a one-argument verb runs that verb's handler on the rest of the line, inside the `RuntimeError` guard. |
| ConsoleProperties.OnlyRawEntersRaw | fluxclient/robot_console.py:38-52 | `raw` is the only verb bound to `raw_mode`. |
| ConsoleProperties.SimpleVerbCall | fluxclient/robot_console.py:61-66 | A simple verb followed by a space makes exactly its table's call, with the rest of the line as its one argument. The step is that call run inside the command guard, so its reply is logged, a `RuntimeError` is caught and any other exception escapes. The session is unchanged. |
| ConsoleProperties.BareSimpleVerb | fluxclient/robot_console.py:61-66 | A simple verb alone on the line makes exactly its table's call with no arguments. The step is that call run inside the command guard. The session is unchanged. |
| ConsoleProperties.QuitIsQuitTask | fluxclient/robot_console.py:26 | In standard mode `quit` is `quit_task`, because the simple table is consulted first. |
| ConsoleProperties.MissingArgument | fluxclient/robot_console.py:67-69 | A one-argument verb with no argument is a `TypeError` that escapes. |
| ConsoleProperties.EmptyArgument | fluxclient/robot_console.py:80 | A blank argument to a first-token verb is an `IndexError` that escapes. |
| ConsoleProperties.NoTokenHandler | fluxclient/robot_console.py:79-164 | Each handler that starts with `shlex.split(arg)[0]` raises `IndexError`, with no effect, on an argument without tokens. |
| ConsoleProperties.SdOnlyLine | fluxclient/robot_console.py:119-138 | A whole `mkdir`/`rmdir`/`rmfile` line either calls the SD operation on the path minus `SD/`, or logs `NOT_SUPPORT`/`SD_ONLY` and nothing else. |
| ConsoleProperties.LsRejected | fluxclient/robot_console.py:89-90 | `ls` of a rejected path logs the caught `NOT_FOUND` and nothing else. |
| ConsoleProperties.UsbSubpathNotListed | fluxclient/robot_console.py:85-88 | No path below `USB/` is accepted by `ls`. |
| ConsoleProperties.CpBadCount | fluxclient/robot_console.py:140-142 | A `cp` line without exactly two tokens logs the caught `BAD_PARAMS` and nothing else. |
| ConsoleProperties.CpArity | fluxclient/robot_console.py:140-159 | The guarded `cp` handler turns the `ValueError` of a token count other than two into the caught `BAD_PARAMS`, with no call. |
| ConsoleProperties.CpTwoTokens | fluxclient/robot_console.py:142-157 | On two tokens, a source off both backends is the caught `BAD_ENTRY` with no call. A good source with an SD target makes exactly one copy call. |
| ConsoleProperties.CpLine | fluxclient/robot_console.py:143-155 | `cp src dst` with a valid source and an SD target makes exactly one copy call, with the resolved source and `dst` minus `SD/`. |
| ConsoleProperties.CpSourceFirst | fluxclient/robot_console.py:143-150 | A bad source is reported as `BAD_ENTRY` whatever the target is. |
| ConsoleProperties.SetLine | fluxclient/robot_console.py:191-198 | A `set` line whose argument has one space calls `set_setting` with the space-free parts around it. Any other number of spaces logs `BAD_PARAMS` with no call, and nothing is caught. |
| ConsoleProperties.SetArgument | fluxclient/robot_console.py:191-198 | The guarded `set` handler: one space gives one `set_setting` call with the space-free parts around it; any other number of spaces logs `BAD_PARAMS` and calls nothing. |
| ConsoleProperties.SelectSdTwice | fluxclient/robot_console.py:101-103 | `select SD/rel` calls `select_sd_file(rel)` twice. |
| ConsoleProperties.FileinfoSdSelects | fluxclient/robot_console.py:111-113 | `fileinfo SD/rel` calls `sd_fileinfo(rel)` and then `select_sd_file(rel)`. |
| ConsoleProperties.RawRoundTrip | fluxclient/robot_console.py:54-59 | Over `raw`, `G1 X10`, `quit`, the full effect list is: take the socket, flip to raw, start the poller, write the line with a newline, flip back, drop the socket, join, write `quit`, read and log the reply. |
| ConsoleProperties.RawSendQuit | fluxclient/robot_console.py:54-59 | In raw mode, a line and then `quit`: the line is written with a newline, then the session leaves raw mode and logs the reply. |
| ConsoleProperties.LsScenario | fluxclient/robot_console.py:79-97 | `ls SD` over a directory and a file logs `DIR SD/models`, `FILE SD/a.fc`, `ls done.`. |
| ConsoleProperties.ListingOf | fluxclient/robot_console.py:79-97 | Listing an accepted one-token path logs the call, the entry lines, then `ls done.`. |
| ConsoleProperties.ListSdScenario | fluxclient/robot_console.py:81-97 | The `ls` handler on `SD` with a directory `models` and a file `a.fc` produces exactly its call and three log lines. |
| ConsoleProperties.JoinUnderDir | fluxclient/robot_console.py:94 | Joining a directory without a trailing slash and a relative name puts exactly one `/` between them. |
| RobotCli.SerialRun | fluxclient/commands/robot.py:9 | The length of the leading run of `[0-9A-Z]` characters. |
| RobotCli.IsSerial | fluxclient/commands/robot.py:8-9 | A target is a serial exactly when it has at least 25 characters and the first 25 are all in `[0-9A-Z]`. |
| RobotCli.SerialPrefix | fluxclient/commands/robot.py:9 | The match is anchored at the start only, so text after a serial keeps it a serial. |
| RobotCli.LowercaseNotSerial | fluxclient/commands/robot.py:9 | A lower-case letter among the first 25 characters means the target is not a serial. |
| RobotCli.ParseIpaddr | fluxclient/commands/robot.py:12-17 | With no colon the result is the target on port 23811. Two or more colons are a `ValueError`. Every failure is a `ValueError`. A parsed host has no colon and a parsed port is non-negative. |
| RobotCli.ParseIpaddrOneColon | fluxclient/commands/robot.py:13-15 | With exactly one colon the host is the text before it. The port is the numeral after it, or the result is a `ValueError`. |
| RobotCli.ParseFormatted | fluxclient/commands/robot.py:12-17 | Parsing `host:port` for a colon-free host gives back that host and port. |
| RobotCli.SelectIpaddr | fluxclient/commands/robot.py:20-21 | An empty candidate list is an `IndexError`. Otherwise the result is the first candidate's host on port 23811. |
| RobotCli.SelectIgnoresPort | fluxclient/commands/robot.py:21 | The result does not depend on the first candidate's port or on the later candidates. |
| RobotCli.Discovery | fluxclient/commands/robot.py:31-39 | For a serial, the address is the first discovered host on port 23811, provided discovery found a candidate and authentication succeeded. A discovery failure, no candidate (`IndexError`) or an authentication failure escapes, in that order. |
| RobotCli.LaunchFailure | fluxclient/commands/robot.py:41-50 | `require_robot()` failing with a `RuntimeError` whose first argument is `ALREADY_RUNNING` is swallowed. One with no argument becomes an `IndexError`. Anything else is raised again unchanged. |
| RobotCli.ParseTarget | fluxclient/commands/robot.py:31-54 | A route comes from discovery exactly for serials. Any other target is connected to directly at the address `parse_ipaddr` gives, and fails with a `ValueError` exactly when parsing fails. A serial resolves exactly when discovery, address selection and authentication succeed and launching raises nothing beyond `ALREADY_RUNNING`. Otherwise the first failure escapes. |
| RobotCli.AddressIgnoresNetwork | fluxclient/commands/robot.py:53-54 | A target that is not a serial resolves the same way whatever discovery would answer. |
| RobotCli.AlreadyRunningResolves | fluxclient/commands/robot.py:46-48 | A serial whose robot is already running still resolves to the discovered address. |
| RobotCli.DoKill | fluxclient/commands/robot.py:146-159 | A non-serial target raises `RuntimeError("Kill must give serial, not IP addr")` before anything else. A kill is sent exactly when the target is a serial and discovery, address selection, authentication and the kill call all succeed. It goes to that serial at the discovered address. Otherwise the first failure escapes. |
| RobotCli.KillAfterAuth | fluxclient/commands/robot.py:149-156 | A kill is sent only after a candidate was found and authentication succeeded. Whether the robot would launch does not matter. |
| RobotCli.ChunkLine | fluxclient/commands/robot.py:61-62 | A chunk's log line is the chunk with its leading and trailing NULs removed, then a newline. The kept text is a contiguous slice of the chunk with only NULs outside it, and it neither starts nor ends with a NUL. |
| RobotCli.Receive | fluxclient/commands/robot.py:57-65 | The receiver reports the connection closed exactly when one of the reads was empty, and never consumes more reads than it was given. |
| RobotCli.ReceiveConsumed | fluxclient/commands/robot.py:57-65 | If the connection stays open, every read is consumed. Otherwise the last read consumed is the first empty one, and no earlier read is empty. |
| RobotCli.ReceiveAppend | fluxclient/commands/robot.py:58-62 | Before the connection closes, the log of two read sequences is the log of the first followed by the log of the second. |
| RobotCli.ReceiveStopsAtClose | fluxclient/commands/robot.py:63-65 | The first empty read appends `Disconnected!!\n`. Nothing after it is read or logged. |
| RobotCli.ReceiveUpToClose | fluxclient/commands/robot.py:63-65 | The reads after the first empty one do not affect the result. |
| RobotCli.ReceiveStep | fluxclient/commands/robot.py:58-64 | While the connection is open, one more chunk appends its line, and an empty read appends the disconnect notice. |
| RobotCli.Receiver | fluxclient/commands/robot.py:57-65 | The receiver loop computes exactly the log and closed flag of the fold. |
| RobotCli.ChooseFrontEnd | fluxclient/commands/robot.py:177-184 | `--kill` wins over `--ipython`, which wins over `--simple`. With none of them the console shell runs. |
| RobotCli.MainExit | fluxclient/commands/robot.py:177-186 | `main` returns only status 0. With `--kill` an exception escapes exactly when `do_kill` raises, and it is that exception; a non-serial target is the kill guard's `RuntimeError`. The console shell returns 0 whatever the target does. The IPython shell returns 0 when the target resolves. The IPython and simple shells let a target failure escape; otherwise the simple shell keeps serving. |

## Left out

- The raw-mode poller thread body, `select()` polling, and the daemon threads' scheduling. They are concurrent. Their start and join appear only as effects.
  - This includes the comparison at fluxclient/robot_console.py:237, which is written where an assignment resetting the mode was probably meant. No mode reset is modelled there.
- UTF-8 encoding and decoding with `"ignore"`. Reads, replies and raw writes are already-decoded strings.
- Quoting and escapes in `shlex.split`. The tokenizer splits on space, tab, CR and LF only.
  - `cp` depends only on its token count and tokens, which agree with `shlex` on quote-free input.
- The temporary image files and `os.system("open …")` of `oneshot`/`scanimages`. They are reduced to a single `ShowImages` effect.
- The progress callback of `upload`/`update_fw` and its floating-point percentage formatting. Only the upload call is recorded.
- The formatting of a caught error through `repr(e.args)`. The effect carries the error's arguments.
- Console.Device: the robot client is stateless. The same call always gets the same answer, so a repeated call such as the second `select_sd_file` sees the first call's reply.
- RobotCli.ParseIpaddr: `int()` accepts only non-empty ASCII digit strings here. Signs, surrounding whitespace, underscores and other Unicode digits are rejected, although Python accepts them.
- RobotCli.ParseTarget: the printed progress (`Discover...`, the serial, model and address, the launch notes), the half-second pause and the key object itself are not modelled. Each serial step is reduced to succeeding or raising (`RobotCli.Upnp`).
- RobotCli.DoKill: its printed output is not modelled. Discovery, authentication and the kill call are reduced to succeeding or raising, as for `parse_target`.
- RobotCli.MainExit: `RobotClient` construction, IPython and argparse are not modelled.
  - Connecting is assumed to succeed.
  - The console shell's read loop ends only by an exception. Its `except Exception` catches every failure of the target, so it returns 0.
  - `Console()` and `console.setup()` run outside that `try`, and `KeyboardInterrupt` or `SystemExit` are not `Exception`s. Neither path is modelled, so a console shell that escapes that way is not covered.
  - The simple shell never returns.
- Console.OnCmd: a raw-mode line is written with `self._raw_sock.send`, outside any `try`, and that write is modelled as always succeeding. A socket error there would escape `on_cmd`.
- Console.QuitRaw: the same holds for writing `quit` on the released socket. Only the reply read afterwards is modelled as able to fail.
- `ipython_shell_reciver`, which prints rather than logs.
- setup_utils.py, at the repository root, which is build and packaging plumbing.

=== FILE: console.dfy ===
/** The robot console (`RobotConsole` in fluxclient/robot_console.py):
    one operator line in, one new session state and an explicit list of
    effects out. The robot client it drives is a parameter (`Device`),
    the background threads are reduced to the effects that start and
    join them, and logging is an effect like any other. */
module Console {
  import opened Runtime
  import opened Text

  // -----------------------------------------------------------------------
  // Session state
  // -----------------------------------------------------------------------

  datatype Mode = Standard | Raw

  /** A raw transport socket handed out by the robot client. */
  datatype Handle = Handle(id: nat)

  /** The console's mutable attributes: `_mode`, `_raw_sock`, and whether
      `_thread` holds a thread object (it is set on raw entry and never
      cleared afterwards). */
  datatype Session = Session(mode: Mode, raw: Option<Handle>, thread: bool)

  const Initial := Session(Standard, None, false)

  /** The raw socket is held exactly while the console is in raw mode,
      and a poller thread has been started whenever it is. */
  predicate Valid(s: Session) {
    (s.mode == Raw <==> s.raw.Some?) && (s.mode == Raw ==> s.thread)
  }

  // -----------------------------------------------------------------------
  // The robot client, as seen by the console
  // -----------------------------------------------------------------------

  datatype Backend = SD | USB

  function BackendName(b: Backend): string {
    match b
    case SD => "SD"
    case USB => "USB"
  }

  /** A resolved virtual path: a storage backend and a path inside it. */
  datatype Location = Location(backend: Backend, rel: string)

  /** One entry of a directory listing. */
  datatype Node = Node(isDir: bool, name: string)

  /** The robot client methods reachable through the simple verb table. */
  datatype SimpleOp =
    | StartPlay | PausePlay | ResumePlay | AbortPlay | ReportPlay
    | Position | QuitTask | Kick
    | BeginScan | ScanBackward | ScanNext
    | BeginMaintain | MaintainHome | ResetMb

  datatype SdOp = Mkdir | Rmdir | Rmfile

  /** A call on the robot client, with its arguments. */
  datatype Call =
    | Simple(op: SimpleOp, args: seq<string>)
    | ListSdFiles(path: string)
    | ListUsbFiles(path: string)
    | SelectSdFile(path: string)
    | SelectUsbFile(path: string)
    | SdFileinfo(path: string)
    | UsbFileinfo(path: string)
    | SdMkdir(path: string)
    | SdRmdir(path: string)
    | SdRmfile(path: string)
    | CpFile(srcBackend: Backend, src: string, dstBackend: Backend, dst: string)
    | UploadFile(filename: string, firmware: bool)
    | CaptureOneshot
    | CaptureScanImages
    | SetSetting(key: string, value: string)
    | OpenRawMode
    | GetResp

  function SdCall(op: SdOp, path: string): Call {
    match op
    case Mkdir => SdMkdir(path)
    case Rmdir => SdRmdir(path)
    case Rmfile => SdRmfile(path)
  }

  /** What the robot client answers: the logged reply of a call, the
      entries of a listing call, and the socket `raw_mode()` hands out.
      Each may instead raise. */
  datatype Device = Device(
    reply: Call -> Result<string>,
    listing: Call -> Result<seq<Node>>,
    rawMode: Result<Handle>)

  // -----------------------------------------------------------------------
  // Effects and outcomes
  // -----------------------------------------------------------------------

  datatype Effect =
    | Invoke(call: Call)                 // a call on the robot client
    | Info(line: string)                 // logger.info
    | Error(line: string)                // logger.error
    | Caught(args: seq<string>)          // a RuntimeError logged with its args
    | RawWrite(handle: Handle, data: string)
    | HoldHandle(handle: Handle)         // _raw_sock := handle
    | DropHandle                         // _raw_sock := None
    | SetMode(mode: Mode)                // _mode := mode
    | StartPoller                        // the raw-mode reader thread starts
    | JoinPoller                         // ... and is joined
    | ShowImages                         // captured images handed to a viewer

  /** A handler either finishes or raises, after some effects. */
  datatype Handled = Done(effects: seq<Effect>) | Raised(effects: seq<Effect>, exc: Exc)

  /** Whether `on_cmd` returns, or an exception escapes it. */
  datatype Outcome = Continue | Crash(exc: Exc)

  datatype Step = Step(next: Session, effects: seq<Effect>, outcome: Outcome)

  /** The robot client calls among a list of effects, in order. */
  function Calls(es: seq<Effect>): seq<Call> {
    if es == [] then []
    else if es[0].Invoke? then [es[0].call] + Calls(es[1..])
    else Calls(es[1..])
  }

  lemma {:induction false} CallsAppend(a: seq<Effect>, b: seq<Effect>)
    ensures Calls(a + b) == Calls(a) + Calls(b)
    decreases |a|
  {
    if a == [] {
      assert a + b == b;
    } else {
      assert (a + b)[0] == a[0];
      assert (a + b)[1..] == a[1..] + b;
      CallsAppend(a[1..], b);
    }
  }

  lemma CallsPair(a: Effect, b: Effect)
    ensures Calls([a, b]) == Calls([a]) + Calls([b])
  {
    assert [a, b] == [a] + [b];
    CallsAppend([a], [b]);
  }

  /** `SD/` and `USB/` paths are told apart by their first character. */
  lemma PrefixesDisjoint(path: string)
    ensures !(StartsWith(path, "SD/") && StartsWith(path, "USB/"))
  {
    if StartsWith(path, "SD/") {
      assert path[0] == 'S';
    }
  }

  // -----------------------------------------------------------------------
  // Messages and error arguments
  // -----------------------------------------------------------------------

  const UnknownCommand := "Unknow Command Q"
  const LsDone := "ls done."
  const RawModeEntered := "raw mode ->"
  const BadParams := "BAD_PARAMS"

  const NotFound := ["NOT_FOUND"]
  const NotFoundBadEntry := ["NOT_FOUND", "BAD_ENTRY"]
  const NotSupportBadEntry := ["NOT_SUPPORT", "BAD_ENTRY"]
  const NotSupportSdOnly := ["NOT_SUPPORT", "SD_ONLY"]

  // -----------------------------------------------------------------------
  // Verb tables
  // -----------------------------------------------------------------------

  /** Verbs whose handler takes exactly one argument string. */
  datatype Command = Ls | Select | Fileinfo | SdOnly(op: SdOp) | Cp | Upload | UpdateFw | Set

  /** The structured verbs, grouped by how many arguments their handler takes. */
  datatype Verb =
    | Unary(cmd: Command)     // one required argument
    | Images(capture: Call)   // `oneshot` and `scanimages`: an optional, ignored argument
    | EnterRawMode            // `raw`: no argument

  const SimpleVerbs: map<string, SimpleOp> := map[
    "start" := StartPlay,
    "pause" := PausePlay,
    "resume" := ResumePlay,
    "abort" := AbortPlay,
    "report" := ReportPlay,
    "position" := Position,
    "quit" := QuitTask,
    "kick" := Kick,
    "scan" := BeginScan,
    "scan_backward" := ScanBackward,
    "scan_next" := ScanNext,
    "maintain" := BeginMaintain,
    "home" := MaintainHome,
    "reset_mb" := ResetMb
  ]

  const Verbs: map<string, Verb> := map[
    "ls" := Unary(Ls),
    "select" := Unary(Select),
    "fileinfo" := Unary(Fileinfo),
    "mkdir" := Unary(SdOnly(Mkdir)),
    "rmdir" := Unary(SdOnly(Rmdir)),
    "rmfile" := Unary(SdOnly(Rmfile)),
    "cp" := Unary(Cp),
    "upload" := Unary(Upload),
    "update_fw" := Unary(UpdateFw),
    "oneshot" := Images(CaptureOneshot),
    "scanimages" := Images(CaptureScanImages),
    "raw" := EnterRawMode,
    "set" := Unary(Set)
  ]

  // -----------------------------------------------------------------------
  // Path resolution
  // -----------------------------------------------------------------------

  /** The path rule of `ls`: the bare backend names, anything under
      `SD/`, and exactly `USB/`. A path below `USB/` is not accepted. */
  function ResolveListing(path: string): (loc: Option<Location>)
    ensures loc.Some? <==>
      path == "SD" || StartsWith(path, "SD/") || path == "USB" || path == "USB/"
    ensures loc.Some? && loc.value.backend == SD ==>
      (path == "SD" && loc.value.rel == "") || path == "SD/" + loc.value.rel
    ensures loc.Some? && loc.value.backend == USB ==>
      (path == "USB" || path == "USB/") && loc.value.rel == ""
  {
    if path == "SD" then Some(Location(SD, ""))
    else if StartsWith(path, "SD/") then Some(Location(SD, path[3..]))
    else if path == "USB" then Some(Location(USB, ""))
    else if path == "USB/" then Some(Location(USB, path[4..]))
    else None
  }

  /** The path rule of `select`, `fileinfo` and the source of `cp`:
      `SD/` or `USB/` followed by the path on that backend. */
  function ResolveEntry(path: string): (loc: Option<Location>)
    ensures loc.Some? <==> StartsWith(path, "SD/") || StartsWith(path, "USB/")
    ensures loc.Some? ==> path == BackendName(loc.value.backend) + "/" + loc.value.rel
  {
    if StartsWith(path, "SD/") then Some(Location(SD, path[3..]))
    else if StartsWith(path, "USB/") then Some(Location(USB, path[4..]))
    else None
  }

  /** `shlex.split(arg)[0]`; no token is an `IndexError`. */
  function FirstToken(arg: string): (r: Result<string>)
    ensures r.Raise? <==> forall i :: 0 <= i < |arg| ==> IsBlank(arg[i])
    ensures r.Raise? ==> r.exc == IndexError
    ensures r.Ok? ==> IsWord(r.value)
    ensures r.Ok? ==>
      var i := BlankRun(arg);
      && i + |r.value| <= |arg| && arg[i..i + |r.value|] == r.value
      && (i + |r.value| == |arg| || IsBlank(arg[i + |r.value|]))
  {
    var ts := Tokens(arg);
    TokensEmpty(arg);
    if ts == [] then Raise(IndexError)
    else
      FirstTokenAt(arg);
      Ok(ts[0])
  }

  // -----------------------------------------------------------------------
  // Handlers
  // -----------------------------------------------------------------------

  /** `simple_cmd`: make the call and log what it returns. */
  function SimpleCmd(dev: Device, call: Call): (h: Handled)
    ensures Calls(h.effects) == [call]
    ensures h.Raised? <==> dev.reply(call).Raise?
    ensures h.Raised? ==> h.exc == dev.reply(call).exc
    ensures h.Done? ==> h.effects[|h.effects| - 1] == Info(dev.reply(call).value)
  {
    match dev.reply(call)
    case Ok(v) =>
      CallsPair(Invoke(call), Info(v));
      Done([Invoke(call), Info(v)])
    case Raise(e) => Raised([Invoke(call)], e)
  }

  /** A call whose return value the console discards. */
  function CallOnly(dev: Device, call: Call): (h: Handled)
    ensures Calls(h.effects) == [call]
    ensures h.Raised? <==> dev.reply(call).Raise?
    ensures h.Raised? ==> h.exc == dev.reply(call).exc
    ensures forall k :: 0 <= k < |h.effects| ==> h.effects[k].Invoke?
  {
    match dev.reply(call)
    case Ok(_) => Done([Invoke(call)])
    case Raise(e) => Raised([Invoke(call)], e)
  }

  /** Run `b` after `a`, unless `a` raised. */
  function Then(a: Handled, b: Handled): (h: Handled)
    ensures a.Raised? ==> h == a
    ensures a.Done? ==> h.effects == a.effects + b.effects && h.Raised? == b.Raised?
    ensures a.Done? && b.Raised? ==> h.exc == b.exc
  {
    match a
    case Raised(_, _) => a
    case Done(ea) =>
      match b
      case Done(eb) => Done(ea + eb)
      case Raised(eb, e) => Raised(ea + eb, e)
  }

  /** The kind of a listing entry, as its log line spells it. */
  function Tag(node: Node): string {
    if node.isDir then "DIR " else "FILE "
  }

  /** The log line of one listing entry: its kind, a space, and the entry
      joined under the listed path. */
  function NodeLine(path: string, node: Node): (line: string)
    ensures StartsWith(line, "DIR ") <==> node.isDir
    ensures StartsWith(line, "FILE ") <==> !node.isDir
    ensures EndsWith(line, node.name)
  {
    var joined := PathJoin(path, node.name);
    Tagged(node.isDir, joined, node.name);
    (if node.isDir then "DIR " else "FILE ") + joined
  }

  lemma Tagged(isDir: bool, joined: string, name: string)
    requires EndsWith(joined, name)
    ensures var line := (if isDir then "DIR " else "FILE ") + joined;
      && (StartsWith(line, "DIR ") <==> isDir)
      && (StartsWith(line, "FILE ") <==> !isDir)
      && EndsWith(line, name)
  {
    var kind := if isDir then "DIR " else "FILE ";
    var line := kind + joined;
    assert line[0] == kind[0];
    assert line[..|kind|] == kind;
    assert line[|line| - |name|..] == joined[|joined| - |name|..];
  }

  /** An entry's line names the entry under the listed path: after the
      tag comes the path itself, then (for a path without a trailing `/`)
      exactly one `/` and the entry's name. */
  lemma NodeLineUnder(path: string, node: Node)
    requires !StartsWith(node.name, "/")
    ensures StartsWith(NodeLine(path, node), Tag(node) + path)
    ensures path != [] && !EndsWith(path, "/") ==>
      NodeLine(path, node) == Tag(node) + path + "/" + node.name
  {
    var joined := PathJoin(path, node.name);
    assert NodeLine(path, node) == Tag(node) + joined;
    assert (Tag(node) + joined)[..|Tag(node) + path|] == Tag(node) + joined[..|path|];
  }

  function ListingLines(path: string, nodes: seq<Node>): (lines: seq<Effect>)
    ensures |lines| == |nodes|
    ensures forall i :: 0 <= i < |nodes| ==> lines[i] == Info(NodeLine(path, nodes[i]))
  {
    seq(|nodes|, i requires 0 <= i < |nodes| => Info(NodeLine(path, nodes[i])))
  }

  function ListCall(loc: Location): Call {
    match loc.backend
    case SD => ListSdFiles(loc.rel)
    case USB => ListUsbFiles(loc.rel)
  }

  /** `list_file`. */
  function ListFile(dev: Device, arg: string): (h: Handled)
    ensures Tokens(arg) == [] ==> h == Raised([], IndexError)
    ensures Tokens(arg) != [] && ResolveListing(Tokens(arg)[0]).None? ==>
      h == Raised([], RuntimeError(NotFound))
    ensures Tokens(arg) != [] && ResolveListing(Tokens(arg)[0]).Some? ==>
      Calls(h.effects) == [ListCall(ResolveListing(Tokens(arg)[0]).value)]
    ensures Tokens(arg) != [] && ResolveListing(Tokens(arg)[0]).Some? ==>
      var call := ListCall(ResolveListing(Tokens(arg)[0]).value);
      && (h.Done? <==> dev.listing(call).Ok?)
      && (h.Raised? ==> h == Raised([Invoke(call)], dev.listing(call).exc))
    ensures h.Done? ==>
      var call := ListCall(ResolveListing(Tokens(arg)[0]).value);
      dev.listing(call).Ok?
      && |h.effects| == |dev.listing(call).value| + 2
      && h.effects[0] == Invoke(call)
      && h.effects[|h.effects| - 1] == Info(LsDone)
      && forall i :: 0 <= i < |dev.listing(call).value| ==>
           h.effects[i + 1] == Info(NodeLine(Tokens(arg)[0], dev.listing(call).value[i]))
  {
    match FirstToken(arg)
    case Raise(e) => Raised([], e)
    case Ok(path) =>
      match ResolveListing(path)
      case None => Raised([], RuntimeError(NotFound))
      case Some(loc) =>
        var call := ListCall(loc);
        match dev.listing(call)
        case Raise(e) => Raised([Invoke(call)], e)
        case Ok(nodes) =>
          var lines := ListingLines(path, nodes);
          CallsListing(call, lines);
          Framed(Invoke(call), lines, Info(LsDone));
          Done([Invoke(call)] + lines + [Info(LsDone)])
  }

  /** Where each part of a log framed by a first and a last line sits. */
  lemma Framed(first: Effect, lines: seq<Effect>, last: Effect)
    ensures var es := [first] + lines + [last];
      && |es| == |lines| + 2 && es[0] == first && es[|es| - 1] == last
      && forall i :: 0 <= i < |lines| ==> es[i + 1] == lines[i]
  {
  }

  lemma CallsListing(call: Call, lines: seq<Effect>)
    requires forall i :: 0 <= i < |lines| ==> lines[i].Info?
    ensures Calls([Invoke(call)] + lines + [Info(LsDone)]) == [call]
  {
    CallsNone(lines + [Info(LsDone)]);
    assert [Invoke(call)] + lines + [Info(LsDone)] == [Invoke(call)] + (lines + [Info(LsDone)]);
  }

  lemma {:induction false} CallsNone(es: seq<Effect>)
    requires forall i :: 0 <= i < |es| ==> !es[i].Invoke?
    ensures Calls(es) == []
    decreases |es|
  {
    if es != [] {
      CallsNone(es[1..]);
    }
  }

  /** `select_file`: on SD the file is selected twice, the first reply
      logged and the second discarded. */
  function SelectFile(dev: Device, arg: string): (h: Handled)
    ensures Tokens(arg) == [] ==> h == Raised([], IndexError)
    ensures Tokens(arg) != [] && ResolveEntry(Tokens(arg)[0]).None? ==>
      h == Raised([], RuntimeError(NotFoundBadEntry))
    ensures Tokens(arg) != [] && StartsWith(Tokens(arg)[0], "SD/") ==>
      var c := SelectSdFile(Tokens(arg)[0][3..]);
      Calls(h.effects) == if dev.reply(c).Ok? then [c, c] else [c]
    ensures Tokens(arg) != [] && StartsWith(Tokens(arg)[0], "USB/") ==>
      Calls(h.effects) == [SelectUsbFile(Tokens(arg)[0][4..])]
    ensures Tokens(arg) != [] && ResolveEntry(Tokens(arg)[0]).Some? ==>
      var loc := ResolveEntry(Tokens(arg)[0]).value;
      var c := if loc.backend == SD then SelectSdFile(loc.rel) else SelectUsbFile(loc.rel);
      && (h.Done? <==> dev.reply(c).Ok?)
      && (h.Raised? ==> h == Raised([Invoke(c)], dev.reply(c).exc))
      && (h.Done? ==> |h.effects| >= 2 && h.effects[..2] == [Invoke(c), Info(dev.reply(c).value)])
  {
    match FirstToken(arg)
    case Raise(e) => Raised([], e)
    case Ok(path) =>
      match ResolveEntry(path)
      case None => Raised([], RuntimeError(NotFoundBadEntry))
      case Some(loc) =>
        PrefixesDisjoint(path);
        if loc.backend == SD then
          var c := SelectSdFile(loc.rel);
          var first := SimpleCmd(dev, c);
          var second := CallOnly(dev, c);
          CallsAppend(first.effects, second.effects);
          Then(first, second)
        else
          SimpleCmd(dev, SelectUsbFile(loc.rel))
  }

  /** `fileinfo`: on SD the info call is followed by a discarded
      `select_sd_file` of the same path. */
  function FileInfo(dev: Device, arg: string): (h: Handled)
    ensures Tokens(arg) == [] ==> h == Raised([], IndexError)
    ensures Tokens(arg) != [] && ResolveEntry(Tokens(arg)[0]).None? ==>
      h == Raised([], RuntimeError(NotFoundBadEntry))
    ensures Tokens(arg) != [] && StartsWith(Tokens(arg)[0], "SD/") ==>
      var rel := Tokens(arg)[0][3..];
      Calls(h.effects) ==
        if dev.reply(SdFileinfo(rel)).Ok? then [SdFileinfo(rel), SelectSdFile(rel)]
        else [SdFileinfo(rel)]
    ensures Tokens(arg) != [] && StartsWith(Tokens(arg)[0], "USB/") ==>
      Calls(h.effects) == [UsbFileinfo(Tokens(arg)[0][4..])]
    ensures Tokens(arg) != [] && ResolveEntry(Tokens(arg)[0]).Some? ==>
      var loc := ResolveEntry(Tokens(arg)[0]).value;
      var c := if loc.backend == SD then SdFileinfo(loc.rel) else UsbFileinfo(loc.rel);
      && (dev.reply(c).Raise? ==> h == Raised([Invoke(c)], dev.reply(c).exc))
      && (dev.reply(c).Ok? ==> |h.effects| >= 2 && h.effects[..2] == [Invoke(c), Info(dev.reply(c).value)])
      && (loc.backend == USB ==> (h.Done? <==> dev.reply(c).Ok?))
      && (loc.backend == SD ==>
            (h.Done? <==> dev.reply(c).Ok? && dev.reply(SelectSdFile(loc.rel)).Ok?))
      && (loc.backend == SD && dev.reply(c).Ok? && h.Raised? ==>
            h.exc == dev.reply(SelectSdFile(loc.rel)).exc)
  {
    match FirstToken(arg)
    case Raise(e) => Raised([], e)
    case Ok(path) =>
      match ResolveEntry(path)
      case None => Raised([], RuntimeError(NotFoundBadEntry))
      case Some(loc) =>
        PrefixesDisjoint(path);
        if loc.backend == SD then
          var first := SimpleCmd(dev, SdFileinfo(loc.rel));
          var second := CallOnly(dev, SelectSdFile(loc.rel));
          CallsAppend(first.effects, second.effects);
          Then(first, second)
        else
          SimpleCmd(dev, UsbFileinfo(loc.rel))
  }

  /** `mkdir`, `rmdir` and `rmfile`: defined for SD paths only. */
  function SdOnlyCmd(dev: Device, op: SdOp, arg: string): (h: Handled)
    ensures Tokens(arg) == [] ==> h == Raised([], IndexError)
    ensures Tokens(arg) != [] ==>
      (Calls(h.effects) != [] <==> StartsWith(Tokens(arg)[0], "SD/"))
    ensures Tokens(arg) != [] && StartsWith(Tokens(arg)[0], "SD/") ==>
      Calls(h.effects) == [SdCall(op, Tokens(arg)[0][3..])]
    ensures Tokens(arg) != [] && !StartsWith(Tokens(arg)[0], "SD/") ==>
      h == Raised([], RuntimeError(NotSupportSdOnly))
    ensures Tokens(arg) != [] && StartsWith(Tokens(arg)[0], "SD/") ==>
      var c := SdCall(op, Tokens(arg)[0][3..]);
      && (h.Done? <==> dev.reply(c).Ok?)
      && (h.Done? ==> h.effects == [Invoke(c), Info(dev.reply(c).value)])
      && (h.Raised? ==> h == Raised([Invoke(c)], dev.reply(c).exc))
  {
    match FirstToken(arg)
    case Raise(e) => Raised([], e)
    case Ok(path) =>
      if StartsWith(path, "SD/") then SimpleCmd(dev, SdCall(op, path[3..]))
      else Raised([], RuntimeError(NotSupportSdOnly))
  }

  /** `cpfile`: exactly two tokens, a source on SD or USB, a target on SD.
      A `ValueError` from inside the `try` (the token unpacking, or the
      copy call itself) becomes `RuntimeError("BAD_PARAMS")`. */
  function CopyFile(dev: Device, arg: string): (h: Handled)
    ensures |Tokens(arg)| != 2 ==> h == Raised([], RuntimeError([BadParams]))
    ensures |Tokens(arg)| == 2 && ResolveEntry(Tokens(arg)[0]).None? ==>
      h == Raised([], RuntimeError(NotSupportBadEntry))
    ensures |Tokens(arg)| == 2 && ResolveEntry(Tokens(arg)[0]).Some?
            && !StartsWith(Tokens(arg)[1], "SD/") ==>
      h == Raised([], RuntimeError(NotSupportSdOnly))
    ensures Calls(h.effects) != [] <==>
      |Tokens(arg)| == 2 && ResolveEntry(Tokens(arg)[0]).Some? && StartsWith(Tokens(arg)[1], "SD/")
    ensures Calls(h.effects) != [] ==>
      Calls(h.effects) == [CpFile(ResolveEntry(Tokens(arg)[0]).value.backend,
                                  ResolveEntry(Tokens(arg)[0]).value.rel,
                                  SD, Tokens(arg)[1][3..])]
    ensures h.Raised? ==> h.exc.RuntimeError? || Calls(h.effects) != []
    ensures Calls(h.effects) != [] ==>
      var c := Calls(h.effects)[0];
      && (h.Done? <==> dev.reply(c).Ok?)
      && (h.Done? ==> h.effects == [Invoke(c), Info(dev.reply(c).value)])
      && (h.Raised? ==> h.effects == [Invoke(c)])
      && (h.Raised? ==> h.exc == if dev.reply(c).exc == ValueError then RuntimeError([BadParams]) else dev.reply(c).exc)
  {
    var ts := Tokens(arg);
    if |ts| != 2 then Raised([], RuntimeError([BadParams]))
    else
      match ResolveEntry(ts[0])
      case None => Raised([], RuntimeError(NotSupportBadEntry))
      case Some(src) =>
        if StartsWith(ts[1], "SD/") then
          var h := SimpleCmd(dev, CpFile(src.backend, src.rel, SD, ts[1][3..]));
          if h.Raised? && h.exc == ValueError then Raised(h.effects, RuntimeError([BadParams]))
          else h
        else
          Raised([], RuntimeError(NotSupportSdOnly))
  }

  /** `upload_file`: the first token names the file; the reply is not
      logged. */
  function UploadCmd(dev: Device, arg: string): (h: Handled)
    ensures Tokens(arg) == [] ==> h == Raised([], IndexError)
    ensures Tokens(arg) != [] ==> Calls(h.effects) == [UploadFile(Tokens(arg)[0], false)]
    ensures Tokens(arg) != [] ==>
      var c := UploadFile(Tokens(arg)[0], false);
      (h.Done? <==> dev.reply(c).Ok?) && (h.Raised? ==> h.exc == dev.reply(c).exc)
  {
    match FirstToken(arg)
    case Raise(e) => Raised([], e)
    case Ok(name) => CallOnly(dev, UploadFile(name, false))
  }

  /** `update_fw`: the whole argument, right-stripped of whitespace,
      names the firmware file; it is not tokenized. */
  function UpdateFwCmd(dev: Device, arg: string): (h: Handled)
    ensures |Calls(h.effects)| == 1 && Calls(h.effects)[0].UploadFile?
    ensures Calls(h.effects)[0].firmware
    ensures StartsWith(arg, Calls(h.effects)[0].filename)
    ensures forall i :: |Calls(h.effects)[0].filename| <= i < |arg| ==> arg[i] in PyWhitespace
    ensures var n := Calls(h.effects)[0].filename; n == [] || n[|n| - 1] !in PyWhitespace
    ensures var c := Calls(h.effects)[0];
      (h.Done? <==> dev.reply(c).Ok?) && (h.Raised? ==> h.exc == dev.reply(c).exc)
  {
    CallOnly(dev, UploadFile(TrimEnd(arg, PyWhitespace), true))
  }

  /** `oneshot` and `scanimages`: capture, then hand the images to a viewer. */
  function CaptureCmd(dev: Device, capture: Call): (h: Handled)
    ensures Calls(h.effects) == [capture]
    ensures h.Done? <==> dev.reply(capture).Ok?
    ensures h.Raised? ==> h.exc == dev.reply(capture).exc
    ensures h.Done? ==> h.effects[|h.effects| - 1] == ShowImages
  {
    Then(CallOnly(dev, capture), Done([ShowImages]))
  }

  /** `set_setting`: the line must split on single spaces into exactly
      a key and a value; otherwise `BAD_PARAMS` is logged, not raised. */
  function SetCmd(dev: Device, line: string): (h: Handled)
    ensures |Split(line, ' ')| != 2 <==> h == Done([Info(BadParams)])
    ensures |Split(line, ' ')| == 2 ==>
      var p := Split(line, ' ');
      line == p[0] + " " + p[1] && Calls(h.effects) == [SetSetting(p[0], p[1])]
    ensures |Split(line, ' ')| == 2 ==>
      var c := SetSetting(Split(line, ' ')[0], Split(line, ' ')[1]);
      && (h.Done? <==> dev.reply(c).Ok?)
      && (h.Done? ==> h.effects == [Invoke(c), Info(dev.reply(c).value)])
    ensures h.Raised? ==> Calls(h.effects) != [] && dev.reply(Calls(h.effects)[0]) == Raise(h.exc)
  {
    var params := Split(line, ' ');
    if |params| == 2 then SimpleCmd(dev, SetSetting(params[0], params[1]))
    else Done([Info(BadParams)])
  }

  /** The handler of a one-argument verb. */
  function RunCommand(dev: Device, cmd: Command, arg: string): Handled {
    match cmd
    case Ls => ListFile(dev, arg)
    case Select => SelectFile(dev, arg)
    case Fileinfo => FileInfo(dev, arg)
    case SdOnly(op) => SdOnlyCmd(dev, op, arg)
    case Cp => CopyFile(dev, arg)
    case Upload => UploadCmd(dev, arg)
    case UpdateFw => UpdateFwCmd(dev, arg)
    case Set => SetCmd(dev, arg)
  }

  // -----------------------------------------------------------------------
  // on_cmd
  // -----------------------------------------------------------------------

  /** The `try`/`except RuntimeError` around a standard-mode handler:
      a RuntimeError is logged and swallowed; anything else escapes. */
  function Absorb(s: Session, h: Handled): (r: Step)
    ensures r.next == s
    ensures Calls(r.effects) == Calls(h.effects)
    ensures r.outcome.Crash? <==> h.Raised? && !h.exc.RuntimeError?
    ensures |h.effects| <= |r.effects| && r.effects[..|h.effects|] == h.effects
    ensures h.Raised? && h.exc.RuntimeError? ==>
      r.effects == h.effects + [Caught(h.exc.args)] && r.outcome == Continue
    ensures !(h.Raised? && h.exc.RuntimeError?) ==> r.effects == h.effects
    ensures h.Raised? && !h.exc.RuntimeError? ==> r.outcome == Crash(h.exc)
  {
    match h
    case Done(es) => Step(s, es, Continue)
    case Raised(es, RuntimeError(args)) =>
      CallsAppend(es, [Caught(args)]);
      Step(s, es + [Caught(args)], Continue)
    case Raised(es, e) => Step(s, es, Crash(e))
  }

  /** `raw_mode`: take the raw socket, switch mode, start the poller. */
  function EnterRaw(dev: Device, s: Session): (r: Step)
    ensures dev.rawMode.Ok? ==> r.next == Session(Raw, Some(dev.rawMode.value), true)
    ensures dev.rawMode.Ok? ==>
      |r.effects| >= 3 && r.effects[..3] == [Invoke(OpenRawMode), HoldHandle(dev.rawMode.value), SetMode(Raw)]
    ensures dev.rawMode.Raise? ==> r.next == s
    ensures dev.rawMode.Raise? && dev.rawMode.exc.RuntimeError? ==>
      r.effects == [Invoke(OpenRawMode), Caught(dev.rawMode.exc.args)] && r.outcome == Continue
    ensures dev.rawMode.Raise? && !dev.rawMode.exc.RuntimeError? ==>
      r.effects == [Invoke(OpenRawMode)] && r.outcome == Crash(dev.rawMode.exc)
    ensures Calls(r.effects) == [OpenRawMode]
  {
    match dev.rawMode
    case Raise(e) =>
      Absorb(s, Raised([Invoke(OpenRawMode)], e))
    case Ok(h) =>
      var es := [Invoke(OpenRawMode), HoldHandle(h), SetMode(Raw), StartPoller, Info(RawModeEntered)];
      CallsNone(es[1..]);
      Step(Session(Raw, Some(h), true), es, Continue)
  }

  /** `quit_raw_mode`: the mode flips and the socket is released before
      the poller is joined and `quit` is written on the old socket. The
      reply is read outside any `try`, so even a RuntimeError escapes. */
  function QuitRaw(dev: Device, s: Session): (r: Step)
    ensures r.next == Session(Standard, None, s.thread)
    ensures |r.effects| >= 2 && r.effects[0] == SetMode(Standard) && r.effects[1] == DropHandle
    ensures s.raw.None? ==> r.outcome == Crash(AttributeError)
    ensures s.raw.Some? ==>
      r.effects == [SetMode(Standard), DropHandle] + (if s.thread then [JoinPoller] else [])
                   + [RawWrite(s.raw.value, "quit"), Invoke(GetResp)]
                   + (if dev.reply(GetResp).Ok? then [Info(dev.reply(GetResp).value)] else [])
    ensures s.raw.Some? ==>
      r.outcome == if dev.reply(GetResp).Ok? then Continue else Crash(dev.reply(GetResp).exc)
  {
    var released := [SetMode(Standard), DropHandle] + (if s.thread then [JoinPoller] else []);
    var next := Session(Standard, None, s.thread);
    match s.raw
    case None => Step(next, released, Crash(AttributeError))
    case Some(h) =>
      var sent := released + [RawWrite(h, "quit"), Invoke(GetResp)];
      match dev.reply(GetResp)
      case Ok(v) => Step(next, sent + [Info(v)], Continue)
      case Raise(e) => Step(next, sent, Crash(e))
  }

  /** A structured verb with the argument list `args[1:]` of `on_cmd`;
      a handler given the wrong number of arguments is a TypeError. */
  function Dispatch(dev: Device, s: Session, verb: Verb, rest: seq<string>): (r: Step)
    requires |rest| <= 1
    ensures verb.Unary? && rest == [] ==> r == Step(s, [], Crash(TypeError))
    ensures verb.Unary? && rest != [] ==> r == Absorb(s, RunCommand(dev, verb.cmd, rest[0]))
    ensures verb == EnterRawMode && rest != [] ==> r == Step(s, [], Crash(TypeError))
    ensures verb == EnterRawMode && rest == [] ==> r == EnterRaw(dev, s)
    ensures verb.Images? ==> r == Absorb(s, CaptureCmd(dev, verb.capture))
  {
    match verb
    case EnterRawMode =>
      if rest == [] then EnterRaw(dev, s) else Step(s, [], Crash(TypeError))
    case Images(capture) => Absorb(s, CaptureCmd(dev, capture))
    case Unary(cmd) =>
      if rest == [] then Step(s, [], Crash(TypeError)) else Absorb(s, RunCommand(dev, cmd, rest[0]))
  }

  /** `on_cmd`: one operator line. */
  function OnCmd(dev: Device, s: Session, line: string): (r: Step)
    ensures s.mode == Raw && s.raw.Some? && line != "quit" ==>
      r.next == s && r.outcome == Continue && r.effects == [RawWrite(s.raw.value, line + "\n")]
    ensures s.mode == Raw && line == "quit" ==> r.next == Session(Standard, None, s.thread)
    ensures s.mode == Standard && r.next != s ==> line == "raw" && r.next.mode == Raw
    ensures s.mode == Standard && SplitOnce(line, ' ')[0] !in SimpleVerbs
            && SplitOnce(line, ' ')[0] !in Verbs ==>
      r == Step(s, [Error(UnknownCommand)], Continue)
    ensures Valid(s) ==> Valid(r.next)
  {
    if s.mode == Raw then
      if line == "quit" then QuitRaw(dev, s)
      else
        match s.raw
        case Some(h) => Step(s, [RawWrite(h, line + "\n")], Continue)
        case None => Step(s, [], Crash(AttributeError))
    else
      var parts := SplitOnce(line, ' ');
      var verb := parts[0];
      var rest := parts[1..];
      if verb in SimpleVerbs then Absorb(s, SimpleCmd(dev, Simple(SimpleVerbs[verb], rest)))
      else if verb in Verbs then Dispatch(dev, s, Verbs[verb], rest)
      else Step(s, [Error(UnknownCommand)], Continue)
  }

  /** A session fed a sequence of lines, stopping at the first crash. */
  function Run(dev: Device, s: Session, lines: seq<string>): (t: Step)
    ensures Valid(s) ==> Valid(t.next)
    decreases |lines|
  {
    if lines == [] then Step(s, [], Continue)
    else
      var r := OnCmd(dev, s, lines[0]);
      if r.outcome.Crash? then r
      else
        var t := Run(dev, r.next, lines[1..]);
        Step(t.next, r.effects + t.effects, t.outcome)
  }
}

=== FILE: console_props.dfy ===
/** Properties of the robot console that relate several calls, whole
    command lines, or a sequence of lines. */
module ConsoleProperties {
  import opened Runtime
  import opened Text
  import opened Console

  /** `a` occurs somewhere before `b` in `es`. */
  predicate Precedes(es: seq<Effect>, a: Effect, b: Effect) {
    exists i, j :: 0 <= i < j < |es| && es[i] == a && es[j] == b
  }

  /** Effects that only call the robot client or log: no mode change,
      no socket taken or released, no raw write, no caught error. */
  predicate Quiet(es: seq<Effect>) {
    forall k :: 0 <= k < |es| ==> es[k].Invoke? || es[k].Info? || es[k].ShowImages?
  }

  /** A standard-mode step that keeps away from the raw socket: it writes
      nothing raw, and a caught RuntimeError is its last effect and
      leaves the session as it was. */
  predicate Contained(s: Session, r: Step) {
    && (forall k :: 0 <= k < |r.effects| ==> !r.effects[k].RawWrite?)
    && (forall k :: 0 <= k < |r.effects| && r.effects[k].Caught? ==>
          k == |r.effects| - 1 && r.next == s && r.outcome == Continue)
  }

  // -----------------------------------------------------------------------
  // Verb lookup
  // -----------------------------------------------------------------------

  /** The keys of `Verbs`, as a disjunction the prover can split on. */
  predicate StructuredName(verb: string) {
    verb == "ls" || verb == "select" || verb == "fileinfo" || verb == "mkdir"
    || verb == "rmdir" || verb == "rmfile" || verb == "cp" || verb == "upload"
    || verb == "update_fw" || verb == "oneshot" || verb == "scanimages"
    || verb == "raw" || verb == "set"
  }

  /** The keys of `SimpleVerbs`, likewise. */
  predicate SimpleName(verb: string) {
    verb == "start" || verb == "pause" || verb == "resume" || verb == "abort"
    || verb == "report" || verb == "position" || verb == "quit" || verb == "kick"
    || verb == "scan" || verb == "scan_backward" || verb == "scan_next"
    || verb == "maintain" || verb == "home" || verb == "reset_mb"
  }

  lemma VerbKeys(verb: string)
    requires verb in Verbs
    ensures StructuredName(verb)
  {
  }

  lemma SimpleVerbKeys(verb: string)
    requires verb in SimpleVerbs
    ensures SimpleName(verb)
  {
  }

  lemma StructuredSpelling(verb: string)
    requires StructuredName(verb)
    ensures verb !in SimpleVerbs && ' ' !in verb
  {
  }

  lemma SimpleSpelling(verb: string)
    requires SimpleName(verb)
    ensures verb !in Verbs && ' ' !in verb
  {
  }

  /** Every structured verb is free of spaces and absent from the
      simple table. */
  lemma VerbFacts(verb: string)
    requires verb in Verbs
    ensures verb !in SimpleVerbs && ' ' !in verb
  {
    VerbKeys(verb);
    StructuredSpelling(verb);
  }

  /** Every simple verb is free of spaces and absent from the structured
      table. */
  lemma SimpleVerbFacts(verb: string)
    requires verb in SimpleVerbs
    ensures verb !in Verbs && ' ' !in verb
  {
    SimpleVerbKeys(verb);
    SimpleSpelling(verb);
  }

  /** The two verb tables share no verb. */
  lemma TablesDisjoint()
    ensures forall v :: v in SimpleVerbs ==> v !in Verbs
  {
    forall v | v in SimpleVerbs
      ensures v !in Verbs
    {
      SimpleVerbFacts(v);
    }
  }

  /** `raw` is the only verb that enters raw mode. */
  lemma OnlyRawEntersRaw(verb: string)
    requires verb in Verbs && Verbs[verb] == EnterRawMode
    ensures verb == "raw"
  {
    VerbKeys(verb);
  }

  /** A structured verb followed by a space: the rest of the line is its
      single argument string. */
  lemma VerbLine(dev: Device, s: Session, verb: string, arg: string)
    requires s.mode == Standard && verb in Verbs
    ensures OnCmd(dev, s, verb + " " + arg) == Dispatch(dev, s, Verbs[verb], [arg])
  {
    VerbFacts(verb);
    SplitOnceAt(verb, ' ', arg);
    assert verb + " " + arg == verb + [' '] + arg;
    assert [verb, arg][1..] == [arg];
  }

  /** A structured verb alone on the line: its handler gets no argument. */
  lemma BareVerb(dev: Device, s: Session, verb: string)
    requires s.mode == Standard && verb in Verbs
    ensures OnCmd(dev, s, verb) == Dispatch(dev, s, Verbs[verb], [])
  {
    VerbFacts(verb);
    assert SplitOnce(verb, ' ') == [verb];
    assert [verb][1..] == [];
  }

  /** A one-argument verb followed by a space runs its handler on the
      rest of the line inside the RuntimeError guard. */
  lemma UnaryLine(dev: Device, s: Session, verb: string, arg: string)
    requires s.mode == Standard && verb in Verbs && Verbs[verb].Unary?
    ensures OnCmd(dev, s, verb + " " + arg) == Absorb(s, RunCommand(dev, Verbs[verb].cmd, arg))
  {
    VerbLine(dev, s, verb, arg);
  }

  lemma LsDispatch(dev: Device, s: Session, arg: string)
    requires s.mode == Standard
    ensures OnCmd(dev, s, "ls " + arg) == Absorb(s, ListFile(dev, arg))
  {
    assert "ls " + arg == "ls" + " " + arg;
    assert Verbs["ls"] == Unary(Ls);
    UnaryLine(dev, s, "ls", arg);
  }

  lemma SelectDispatch(dev: Device, s: Session, arg: string)
    requires s.mode == Standard
    ensures OnCmd(dev, s, "select " + arg) == Absorb(s, SelectFile(dev, arg))
  {
    assert "select " + arg == "select" + " " + arg;
    assert Verbs["select"] == Unary(Select);
    UnaryLine(dev, s, "select", arg);
  }

  lemma FileinfoDispatch(dev: Device, s: Session, arg: string)
    requires s.mode == Standard
    ensures OnCmd(dev, s, "fileinfo " + arg) == Absorb(s, FileInfo(dev, arg))
  {
    assert "fileinfo " + arg == "fileinfo" + " " + arg;
    assert Verbs["fileinfo"] == Unary(Fileinfo);
    UnaryLine(dev, s, "fileinfo", arg);
  }

  lemma CpDispatch(dev: Device, s: Session, arg: string)
    requires s.mode == Standard
    ensures OnCmd(dev, s, "cp " + arg) == Absorb(s, RunCommand(dev, Cp, arg))
  {
    assert "cp " + arg == "cp" + " " + arg;
    assert Verbs["cp"] == Unary(Cp);
    UnaryLine(dev, s, "cp", arg);
  }

  lemma SetDispatch(dev: Device, s: Session, arg: string)
    requires s.mode == Standard
    ensures OnCmd(dev, s, "set " + arg) == Absorb(s, RunCommand(dev, Set, arg))
  {
    assert "set " + arg == "set" + " " + arg;
    assert Verbs["set"] == Unary(Set);
    UnaryLine(dev, s, "set", arg);
  }

  /** A simple verb alone on the line makes its table's call with no
      arguments. */
  lemma BareSimpleVerb(dev: Device, s: Session, verb: string)
    requires s.mode == Standard && verb in SimpleVerbs
    ensures OnCmd(dev, s, verb).next == s
    ensures Calls(OnCmd(dev, s, verb).effects) == [Simple(SimpleVerbs[verb], [])]
    ensures OnCmd(dev, s, verb) == Absorb(s, SimpleCmd(dev, Simple(SimpleVerbs[verb], [])))
  {
    SimpleVerbFacts(verb);
    assert SplitOnce(verb, ' ') == [verb];
    assert [verb][1..] == [];
  }

  /** A simple verb followed by a space makes its table's call with the
      rest of the line as the one argument. */
  lemma SimpleVerbCall(dev: Device, s: Session, verb: string, rest: string)
    requires s.mode == Standard && verb in SimpleVerbs
    ensures OnCmd(dev, s, verb + " " + rest).next == s
    ensures Calls(OnCmd(dev, s, verb + " " + rest).effects) == [Simple(SimpleVerbs[verb], [rest])]
    ensures OnCmd(dev, s, verb + " " + rest) == Absorb(s, SimpleCmd(dev, Simple(SimpleVerbs[verb], [rest])))
  {
    SimpleVerbFacts(verb);
    SplitOnceAt(verb, ' ', rest);
    assert verb + " " + rest == verb + [' '] + rest;
    assert [verb, rest][1..] == [rest];
  }

  /** In standard mode `quit` is the simple verb `quit_task`. */
  lemma QuitIsQuitTask(dev: Device, s: Session)
    requires s.mode == Standard
    ensures OnCmd(dev, s, "quit").next == s
    ensures Calls(OnCmd(dev, s, "quit").effects) == [Simple(QuitTask, [])]
  {
    assert SimpleVerbs["quit"] == QuitTask;
    BareSimpleVerb(dev, s, "quit");
  }

  /** A one-argument structured verb with no argument at all is a
      TypeError that escapes the console. */
  lemma MissingArgument(dev: Device, s: Session, verb: string)
    requires s.mode == Standard && verb in Verbs && Verbs[verb].Unary?
    ensures OnCmd(dev, s, verb) == Step(s, [], Crash(TypeError))
  {
    BareVerb(dev, s, verb);
  }

  /** The handlers that take the first token of their argument raise
      IndexError, with no effect, on an argument without tokens. */
  lemma NoTokenHandler(dev: Device, cmd: Command, arg: string)
    requires cmd in {Ls, Select, Fileinfo, Upload, SdOnly(Mkdir), SdOnly(Rmdir), SdOnly(Rmfile)}
    requires Tokens(arg) == []
    ensures RunCommand(dev, cmd, arg) == Raised([], IndexError)
  {
  }

  /** An argument that is present but holds no token is an IndexError
      for every verb that takes the first token of its argument. */
  lemma EmptyArgument(dev: Device, s: Session, verb: string, blanks: string)
    requires s.mode == Standard && verb in Verbs
    requires Verbs[verb] in {Unary(Ls), Unary(Select), Unary(Fileinfo), Unary(Upload),
                             Unary(SdOnly(Mkdir)), Unary(SdOnly(Rmdir)), Unary(SdOnly(Rmfile))}
    requires forall i :: 0 <= i < |blanks| ==> IsBlank(blanks[i])
    ensures OnCmd(dev, s, verb + " " + blanks) == Step(s, [], Crash(IndexError))
  {
    UnaryLine(dev, s, verb, blanks);
    TokensEmpty(blanks);
    NoTokenHandler(dev, Verbs[verb].cmd, blanks);
  }

  // -----------------------------------------------------------------------
  // Raw mode
  // -----------------------------------------------------------------------

  /** The `raw` line with a socket on offer. */
  lemma RawEntryStep(dev: Device, s: Session)
    requires s.mode == Standard && dev.rawMode.Ok?
    ensures OnCmd(dev, s, "raw") == Step(Session(Raw, Some(dev.rawMode.value), true),
      [Invoke(OpenRawMode), HoldHandle(dev.rawMode.value), SetMode(Raw), StartPoller,
       Info(RawModeEntered)], Continue)
  {
    assert Verbs["raw"] == EnterRawMode;
    BareVerb(dev, s, "raw");
  }

  /** Entering raw mode: the socket is taken before the mode flips, and
      the session then holds it with a poller started. */
  lemma RawEntry(dev: Device, s: Session)
    requires s.mode == Standard && dev.rawMode.Ok?
    ensures var r := OnCmd(dev, s, "raw");
      && r.outcome == Continue
      && r.next == Session(Raw, Some(dev.rawMode.value), true) && Valid(r.next)
      && Precedes(r.effects, HoldHandle(dev.rawMode.value), SetMode(Raw))
      && Precedes(r.effects, SetMode(Raw), StartPoller)
  {
    RawEntryStep(dev, s);
    var r := OnCmd(dev, s, "raw");
    assert r.effects[1] == HoldHandle(dev.rawMode.value);
    assert r.effects[2] == SetMode(Raw);
    assert r.effects[3] == StartPoller;
  }

  /** Leaving raw mode: the mode flips to standard, then the socket is
      released, then the poller is joined, and only after all three is
      `quit` written, on the socket that was held. No other raw write
      happens. */
  lemma RawQuitOrdering(dev: Device, s: Session)
    requires Valid(s) && s.mode == Raw
    ensures var r := OnCmd(dev, s, "quit");
      && r.next.mode == Standard && r.next.raw == None && Valid(r.next)
      && Precedes(r.effects, SetMode(Standard), DropHandle)
      && Precedes(r.effects, DropHandle, JoinPoller)
      && Precedes(r.effects, JoinPoller, RawWrite(s.raw.value, "quit"))
      && forall k :: 0 <= k < |r.effects| && r.effects[k].RawWrite? ==>
           r.effects[k] == RawWrite(s.raw.value, "quit")
    ensures var r := OnCmd(dev, s, "quit");
      && |r.effects| >= 4
      && r.effects[..4] == [SetMode(Standard), DropHandle, JoinPoller, RawWrite(s.raw.value, "quit")]
      && forall k :: 4 <= k < |r.effects| ==> !r.effects[k].RawWrite?
  {
    var r := OnCmd(dev, s, "quit");
    var h := s.raw.value;
    assert r.effects[0] == SetMode(Standard);
    assert r.effects[1] == DropHandle;
    assert r.effects[2] == JoinPoller;
    assert r.effects[3] == RawWrite(h, "quit");
  }

  /** The raw `quit` line of a session that entered raw mode, when the
      robot answers. */
  lemma RawQuitStep(dev: Device, h: Handle, reply: string)
    requires dev.reply(GetResp) == Ok(reply)
    ensures OnCmd(dev, Session(Raw, Some(h), true), "quit") ==
      Step(Session(Standard, None, true),
           [SetMode(Standard), DropHandle, JoinPoller, RawWrite(h, "quit"),
            Invoke(GetResp), Info(reply)], Continue)
  {
  }

  /** In raw mode every line but `quit` goes to the socket untouched
      (plus a newline), whatever verb it starts with. */
  lemma RawPassthrough(dev: Device, s: Session, verb: string, rest: string)
    requires Valid(s) && s.mode == Raw
    requires verb in SimpleVerbs || verb in Verbs
    requires verb + rest != "quit"
    ensures Calls(OnCmd(dev, s, verb + rest).effects) == []
    ensures OnCmd(dev, s, verb + rest).effects == [RawWrite(s.raw.value, verb + rest + "\n")]
  {
    CallsNone(OnCmd(dev, s, verb + rest).effects);
  }

  // -----------------------------------------------------------------------
  // Standard mode stays away from the raw socket
  // -----------------------------------------------------------------------

  lemma SimpleQuiet(dev: Device, call: Call)
    ensures Quiet(SimpleCmd(dev, call).effects)
    ensures Quiet(CallOnly(dev, call).effects)
  {
  }

  lemma ThenQuiet(a: Handled, b: Handled)
    requires Quiet(a.effects) && Quiet(b.effects)
    ensures Quiet(Then(a, b).effects)
  {
    if a.Done? {
      var es := Then(a, b).effects;
      assert es == a.effects + b.effects;
      forall k | 0 <= k < |es|
        ensures es[k].Invoke? || es[k].Info? || es[k].ShowImages?
      {
        if k >= |a.effects| {
          assert es[k] == b.effects[k - |a.effects|];
        }
      }
    }
  }

  /** A listing logs its call, one line per entry, and `ls done.`. */
  lemma ListFileQuiet(dev: Device, arg: string)
    ensures Quiet(ListFile(dev, arg).effects)
  {
    var h := ListFile(dev, arg);
    if h.Done? {
      forall k | 0 <= k < |h.effects|
        ensures h.effects[k].Invoke? || h.effects[k].Info?
      {
        if 0 < k < |h.effects| - 1 {
          assert h.effects[(k - 1) + 1].Info?;
        }
      }
    }
  }

  lemma SelectQuiet(dev: Device, arg: string)
    ensures Quiet(SelectFile(dev, arg).effects)
  {
    if Tokens(arg) != [] {
      var path := Tokens(arg)[0];
      if StartsWith(path, "SD/") {
        SimpleQuiet(dev, SelectSdFile(path[3..]));
        ThenQuiet(SimpleCmd(dev, SelectSdFile(path[3..])), CallOnly(dev, SelectSdFile(path[3..])));
      }
    }
  }

  lemma FileInfoQuiet(dev: Device, arg: string)
    ensures Quiet(FileInfo(dev, arg).effects)
  {
    if Tokens(arg) != [] {
      var path := Tokens(arg)[0];
      if StartsWith(path, "SD/") {
        SimpleQuiet(dev, SdFileinfo(path[3..]));
        SimpleQuiet(dev, SelectSdFile(path[3..]));
        ThenQuiet(SimpleCmd(dev, SdFileinfo(path[3..])), CallOnly(dev, SelectSdFile(path[3..])));
      }
    }
  }

  lemma CaptureQuiet(dev: Device, capture: Call)
    ensures Quiet(CaptureCmd(dev, capture).effects)
  {
    SimpleQuiet(dev, capture);
    ThenQuiet(CallOnly(dev, capture), Done([ShowImages]));
  }

  lemma SdOnlyQuiet(dev: Device, op: SdOp, arg: string)
    ensures Quiet(SdOnlyCmd(dev, op, arg).effects)
  {
    if Tokens(arg) != [] && StartsWith(Tokens(arg)[0], "SD/") {
      SimpleQuiet(dev, SdCall(op, Tokens(arg)[0][3..]));
    }
  }

  lemma CopyQuiet(dev: Device, arg: string)
    ensures Quiet(CopyFile(dev, arg).effects)
  {
    var ts := Tokens(arg);
    if |ts| == 2 && ResolveEntry(ts[0]).Some? && StartsWith(ts[1], "SD/") {
      var src := ResolveEntry(ts[0]).value;
      SimpleQuiet(dev, CpFile(src.backend, src.rel, SD, ts[1][3..]));
    }
  }

  lemma UploadQuiet(dev: Device, arg: string)
    ensures Quiet(UploadCmd(dev, arg).effects)
    ensures Quiet(UpdateFwCmd(dev, arg).effects)
  {
    if Tokens(arg) != [] {
      SimpleQuiet(dev, UploadFile(Tokens(arg)[0], false));
    }
    SimpleQuiet(dev, UploadFile(TrimEnd(arg, PyWhitespace), true));
  }

  lemma SetQuiet(dev: Device, arg: string)
    ensures Quiet(SetCmd(dev, arg).effects)
  {
    var p := Split(arg, ' ');
    if |p| == 2 {
      SimpleQuiet(dev, SetSetting(p[0], p[1]));
    }
  }

  /** Standard-mode handlers only call the robot client and log. */
  lemma CommandQuiet(dev: Device, cmd: Command, arg: string)
    ensures Quiet(RunCommand(dev, cmd, arg).effects)
  {
    match cmd
    case Ls => ListFileQuiet(dev, arg);
    case Select => SelectQuiet(dev, arg);
    case Fileinfo => FileInfoQuiet(dev, arg);
    case SdOnly(op) => SdOnlyQuiet(dev, op, arg);
    case Cp => CopyQuiet(dev, arg);
    case Upload => UploadQuiet(dev, arg);
    case UpdateFw => UploadQuiet(dev, arg);
    case Set => SetQuiet(dev, arg);
  }

  lemma AbsorbContained(s: Session, h: Handled)
    requires Quiet(h.effects)
    ensures Contained(s, Absorb(s, h))
  {
    var r := Absorb(s, h);
    if h.Raised? && h.exc.RuntimeError? {
      assert r.effects == h.effects + [Caught(h.exc.args)];
      forall k | 0 <= k < |r.effects| - 1
        ensures r.effects[k] == h.effects[k]
      {
      }
    }
  }

  /** A structured verb in standard mode: only `raw` with a socket on
      offer changes the session. */
  lemma DispatchStep(dev: Device, s: Session, verb: Verb, rest: seq<string>)
    requires s.mode == Standard && |rest| <= 1
    ensures var r := Dispatch(dev, s, verb, rest);
      && Contained(s, r)
      && (r.next != s ==> verb == EnterRawMode && rest == [] && dev.rawMode.Ok? && r.outcome == Continue)
  {
    match verb
    case EnterRawMode =>
      if rest == [] && dev.rawMode.Raise? {
        AbsorbContained(s, Raised([Invoke(OpenRawMode)], dev.rawMode.exc));
      }
    case Images(capture) =>
      CaptureQuiet(dev, capture);
      AbsorbContained(s, CaptureCmd(dev, capture));
    case Unary(cmd) =>
      if rest != [] {
        CommandQuiet(dev, cmd, rest[0]);
        AbsorbContained(s, RunCommand(dev, cmd, rest[0]));
      }
  }

  /** Outside raw mode, nothing touches the raw socket: no raw write, and
      the only state change is entering raw mode on the line `raw`. A
      RuntimeError is logged last and leaves the session as it was. */
  lemma StandardStep(dev: Device, s: Session, line: string)
    requires s.mode == Standard
    ensures var r := OnCmd(dev, s, line);
      && Contained(s, r)
      && (r.next != s ==> line == "raw" && dev.rawMode.Ok? && r.outcome == Continue)
  {
    var parts := SplitOnce(line, ' ');
    var verb := parts[0];
    var rest := parts[1..];
    if verb in SimpleVerbs {
      var call := Simple(SimpleVerbs[verb], rest);
      SimpleQuiet(dev, call);
      AbsorbContained(s, SimpleCmd(dev, call));
    } else if verb in Verbs {
      DispatchStep(dev, s, Verbs[verb], rest);
      if Verbs[verb] == EnterRawMode && rest == [] {
        OnlyRawEntersRaw(verb);
      }
    }
  }

  // -----------------------------------------------------------------------
  // Path-aware verbs on whole lines
  // -----------------------------------------------------------------------

  /** The verb of each SD-only operation. */
  function SdVerb(op: SdOp): string {
    match op
    case Mkdir => "mkdir"
    case Rmdir => "rmdir"
    case Rmfile => "rmfile"
  }

  /** `mkdir`, `rmdir` and `rmfile` of a one-token path: one call on the
      SD card with the path minus `SD/` when the path is on SD; otherwise
      the RuntimeError `NOT_SUPPORT`/`SD_ONLY` is logged and nothing is
      called. */
  lemma SdOnlyLine(dev: Device, s: Session, op: SdOp, path: string)
    requires s.mode == Standard && IsWord(path)
    ensures var r := OnCmd(dev, s, SdVerb(op) + " " + path);
      && r.next == s
      && (StartsWith(path, "SD/") ==> Calls(r.effects) == [SdCall(op, path[3..])])
      && (!StartsWith(path, "SD/") ==>
            r == Step(s, [Caught(NotSupportSdOnly)], Continue))
  {
    var verb := SdVerb(op);
    assert Verbs[verb] == Unary(SdOnly(op));
    UnaryLine(dev, s, verb, path);
    OneToken(path);
  }

  /** `ls` of a one-token path that the listing rule rejects (such as
      `USB/x`) logs `NOT_FOUND` and lists nothing. */
  lemma LsRejected(dev: Device, s: Session, path: string)
    requires s.mode == Standard && IsWord(path) && ResolveListing(path).None?
    ensures OnCmd(dev, s, "ls " + path) == Step(s, [Caught(NotFound)], Continue)
  {
    LsDispatch(dev, s, path);
    OneToken(path);
    assert [] + [Caught(NotFound)] == [Caught(NotFound)];
  }

  /** The listing rule does not accept a path below `USB/`. */
  lemma UsbSubpathNotListed(rel: string)
    requires rel != []
    ensures ResolveListing("USB/" + rel).None?
  {
    assert ("USB/" + rel)[0] == 'U';
  }

  /** The guarded `cp` handler on anything but exactly two tokens. */
  lemma CpArity(dev: Device, s: Session, arg: string)
    requires |Tokens(arg)| != 2
    ensures Absorb(s, RunCommand(dev, Cp, arg)) == Step(s, [Caught([BadParams])], Continue)
  {
    assert [] + [Caught([BadParams])] == [Caught([BadParams])];
  }

  /** The guarded `cp` handler on two tokens: a source off both backends
      is rejected whatever the target, and a good source with an SD
      target makes the one copy call. */
  lemma CpTwoTokens(dev: Device, s: Session, src: string, dst: string)
    requires IsWord(src) && IsWord(dst)
    ensures var r := Absorb(s, RunCommand(dev, Cp, src + " " + dst));
      && (ResolveEntry(src).None? ==> r == Step(s, [Caught(NotSupportBadEntry)], Continue))
      && (ResolveEntry(src).Some? && StartsWith(dst, "SD/") ==>
            Calls(r.effects) == [CpFile(ResolveEntry(src).value.backend, ResolveEntry(src).value.rel,
                                        SD, dst[3..])])
  {
    TwoTokens(src, dst);
    assert [] + [Caught(NotSupportBadEntry)] == [Caught(NotSupportBadEntry)];
  }

  /** `cp` of anything but exactly two tokens logs `BAD_PARAMS`. */
  lemma CpBadCount(dev: Device, s: Session, arg: string)
    requires s.mode == Standard && |Tokens(arg)| != 2
    ensures OnCmd(dev, s, "cp " + arg) == Step(s, [Caught([BadParams])], Continue)
  {
    CpDispatch(dev, s, arg);
    CpArity(dev, s, arg);
  }

  /** `cp <source> <target>` with a source on either backend and a
      target on SD makes exactly the one copy call. */
  lemma CpLine(dev: Device, s: Session, src: string, dst: string)
    requires s.mode == Standard && IsWord(src) && IsWord(dst)
    requires ResolveEntry(src).Some? && StartsWith(dst, "SD/")
    ensures var loc := ResolveEntry(src).value;
      Calls(OnCmd(dev, s, "cp " + src + " " + dst).effects) == [CpFile(loc.backend, loc.rel, SD, dst[3..])]
  {
    assert "cp " + src + " " + dst == "cp " + (src + " " + dst);
    CpDispatch(dev, s, src + " " + dst);
    CpTwoTokens(dev, s, src, dst);
  }

  /** `cp` with a source off both backends is rejected before the target
      is looked at. */
  lemma CpSourceFirst(dev: Device, s: Session, src: string, dst: string)
    requires s.mode == Standard && IsWord(src) && IsWord(dst)
    requires ResolveEntry(src).None?
    ensures OnCmd(dev, s, "cp " + src + " " + dst) ==
      Step(s, [Caught(NotSupportBadEntry)], Continue)
  {
    assert "cp " + src + " " + dst == "cp " + (src + " " + dst);
    CpDispatch(dev, s, src + " " + dst);
    CpTwoTokens(dev, s, src, dst);
  }

  /** The guarded `set` handler in terms of the number of spaces in its
      argument. */
  lemma SetArgument(dev: Device, s: Session, line: string)
    ensures var r := Absorb(s, RunCommand(dev, Set, line));
      && r.next == s
      && (Count(line, ' ') != 1 ==> r == Step(s, [Info(BadParams)], Continue))
      && (Count(line, ' ') == 1 ==>
            exists key, value :: line == key + " " + value
              && ' ' !in key && ' ' !in value
              && Calls(r.effects) == [SetSetting(key, value)])
  {
    var p := Split(line, ' ');
    if Count(line, ' ') == 1 {
      assert ' ' !in p[0] && ' ' !in p[1];
    }
  }

  /** `set` splits on single spaces: a line with one space passes the
      parts around it as key and value, and any other count of spaces is
      `BAD_PARAMS`, logged as information with no call and no error. */
  lemma SetLine(dev: Device, s: Session, line: string)
    requires s.mode == Standard
    ensures var r := OnCmd(dev, s, "set " + line);
      && r.next == s
      && (Count(line, ' ') != 1 ==> r == Step(s, [Info(BadParams)], Continue))
      && (Count(line, ' ') == 1 ==>
            exists key, value :: line == key + " " + value
              && ' ' !in key && ' ' !in value
              && Calls(r.effects) == [SetSetting(key, value)])
  {
    SetDispatch(dev, s, line);
    SetArgument(dev, s, line);
  }

  /** `select SD/<rel>` selects the file twice. */
  lemma SelectSdTwice(dev: Device, s: Session, rel: string)
    requires s.mode == Standard && IsWord("SD/" + rel)
    requires dev.reply(SelectSdFile(rel)).Ok?
    ensures Calls(OnCmd(dev, s, "select SD/" + rel).effects) == [SelectSdFile(rel), SelectSdFile(rel)]
  {
    var path := "SD/" + rel;
    assert "select SD/" + rel == "select " + path;
    SelectDispatch(dev, s, path);
    OneToken(path);
    assert StartsWith(path, "SD/") && path[3..] == rel;
  }

  /** `fileinfo SD/<rel>` follows the info call with a selection. */
  lemma FileinfoSdSelects(dev: Device, s: Session, rel: string)
    requires s.mode == Standard && IsWord("SD/" + rel)
    requires dev.reply(SdFileinfo(rel)).Ok?
    ensures Calls(OnCmd(dev, s, "fileinfo SD/" + rel).effects) == [SdFileinfo(rel), SelectSdFile(rel)]
  {
    var path := "SD/" + rel;
    assert "fileinfo SD/" + rel == "fileinfo " + path;
    FileinfoDispatch(dev, s, path);
    OneToken(path);
    assert StartsWith(path, "SD/") && path[3..] == rel;
  }

  // -----------------------------------------------------------------------
  // Sessions
  // -----------------------------------------------------------------------

  /** In a session that entered raw mode: one line sent, then `quit`. */
  lemma RawSendQuit(dev: Device, h: Handle, reply: string)
    requires dev.reply(GetResp) == Ok(reply)
    ensures Run(dev, Session(Raw, Some(h), true), ["G1 X10", "quit"]) ==
      Step(Session(Standard, None, true),
           [RawWrite(h, "G1 X10\n"), SetMode(Standard), DropHandle, JoinPoller,
            RawWrite(h, "quit"), Invoke(GetResp), Info(reply)], Continue)
  {
    var s1 := Session(Raw, Some(h), true);
    var s2 := Session(Standard, None, true);
    var e3 := [SetMode(Standard), DropHandle, JoinPoller, RawWrite(h, "quit"), Invoke(GetResp), Info(reply)];
    assert "G1 X10" + "\n" == "G1 X10\n";
    assert OnCmd(dev, s1, "G1 X10") == Step(s1, [RawWrite(h, "G1 X10\n")], Continue);
    RawQuitStep(dev, h, reply);
    assert ["quit"][1..] == [];
    assert Run(dev, s1, ["quit"]) == Step(s2, e3 + [], Continue);
    assert ["G1 X10", "quit"][1..] == ["quit"];
  }

  /** Entering raw mode, sending one line and quitting: the line reaches
      the socket with a newline, the session is back in standard mode
      without a socket, `quit` is written on the socket, and the reply
      read from the connection is logged. */
  lemma RawRoundTrip(dev: Device, h: Handle, reply: string)
    requires dev.rawMode == Ok(h)
    requires dev.reply(GetResp) == Ok(reply)
    ensures var t := Run(dev, Initial, ["raw", "G1 X10", "quit"]);
      && t.outcome == Continue
      && t.next == Session(Standard, None, true)
      && t.effects == [Invoke(OpenRawMode), HoldHandle(h), SetMode(Raw), StartPoller,
                       Info(RawModeEntered),
                       RawWrite(h, "G1 X10\n"),
                       SetMode(Standard), DropHandle, JoinPoller, RawWrite(h, "quit"),
                       Invoke(GetResp), Info(reply)]
  {
    RawEntryStep(dev, Initial);
    RawSendQuit(dev, h, reply);
    assert ["raw", "G1 X10", "quit"][1..] == ["G1 X10", "quit"];
  }

  lemma JoinUnderDir(dir: string, name: string)
    requires dir != [] && dir[|dir| - 1] != '/'
    requires name != [] && name[0] != '/'
    ensures PathJoin(dir, name) == dir + "/" + name
  {
    assert !StartsWith(name, "/") by {
      assert name[..1][0] == name[0];
    }
    assert !EndsWith(dir, "/") by {
      assert dir[|dir| - 1..][0] == dir[|dir| - 1];
    }
  }

  /** A listing of a one-token path that the rule accepts: the call, one
      line per entry, and `ls done.`. */
  lemma ListingOf(dev: Device, path: string, loc: Location, nodes: seq<Node>)
    requires Tokens(path) == [path] && ResolveListing(path) == Some(loc)
    requires dev.listing(ListCall(loc)) == Ok(nodes)
    ensures ListFile(dev, path) ==
      Done([Invoke(ListCall(loc))] + ListingLines(path, nodes) + [Info(LsDone)])
  {
  }

  lemma SdDirLine()
    ensures NodeLine("SD", Node(true, "models")) == "DIR SD/models"
  {
    JoinUnderDir("SD", "models");
    assert "DIR " + ("SD" + "/" + "models") == "DIR SD/models";
  }

  lemma SdFileLine()
    ensures NodeLine("SD", Node(false, "a.fc")) == "FILE SD/a.fc"
  {
    JoinUnderDir("SD", "a.fc");
    assert "FILE " + ("SD" + "/" + "a.fc") == "FILE SD/a.fc";
  }

  /** The log lines of the entries directory `models` and file `a.fc`
      listed under `SD`. */
  lemma SdListingLines()
    ensures ListingLines("SD", [Node(true, "models"), Node(false, "a.fc")]) ==
      [Info("DIR SD/models"), Info("FILE SD/a.fc")]
  {
    SdDirLine();
    SdFileLine();
  }

  lemma ListSdScenario(dev: Device)
    requires dev.listing(ListSdFiles("")) == Ok([Node(true, "models"), Node(false, "a.fc")])
    ensures ListFile(dev, "SD") == Done([Invoke(ListSdFiles("")),
      Info("DIR SD/models"), Info("FILE SD/a.fc"), Info(LsDone)])
  {
    var nodes := [Node(true, "models"), Node(false, "a.fc")];
    OneToken("SD");
    assert ResolveListing("SD") == Some(Location(SD, ""));
    ListingOf(dev, "SD", Location(SD, ""), nodes);
    SdListingLines();
  }

  /** `ls SD` over the entries (directory `models`, file `a.fc`). */
  lemma LsScenario(dev: Device, s: Session)
    requires s.mode == Standard
    requires dev.listing(ListSdFiles("")) == Ok([Node(true, "models"), Node(false, "a.fc")])
    ensures OnCmd(dev, s, "ls SD") == Step(s, [Invoke(ListSdFiles("")),
      Info("DIR SD/models"), Info("FILE SD/a.fc"), Info(LsDone)], Continue)
  {
    assert "ls SD" == "ls " + "SD";
    LsDispatch(dev, s, "SD");
    ListSdScenario(dev);
  }
}

=== FILE: robot_cli.dfy ===
/** The pure parts of the `flux robot` command (fluxclient/commands/robot.py):
    telling a serial from an address, parsing `host[:port]`, picking a
    discovered address, the kill guard, the receiver that copies the
    connection into the console log, and the choice of front end. */
module RobotCli {
  import opened Runtime
  import opened Text

  /** The robot's port when the target does not name one. */
  const DefaultPort := 23811

  /** Length of a device serial. */
  const SerialLength := 25

  // -----------------------------------------------------------------------
  // is_serial
  // -----------------------------------------------------------------------

  /** A character of the class `[0-9A-Z]`. */
  predicate IsSerialChar(c: char) {
    '0' <= c <= '9' || 'A' <= c <= 'Z'
  }

  /** Length of the longest prefix of `t` made of serial characters. */
  function SerialRun(t: string): (n: nat)
    ensures n <= |t|
    ensures forall i :: 0 <= i < n ==> IsSerialChar(t[i])
    ensures n < |t| ==> !IsSerialChar(t[n])
  {
    if t == [] || !IsSerialChar(t[0]) then 0 else 1 + SerialRun(t[1..])
  }

  /** `is_serial`: `re.match("[0-9A-Z]{25}", t)`, a match anchored at the
      start only, so anything may follow the 25 characters. */
  function IsSerial(t: string): (serial: bool)
    ensures serial <==> |t| >= SerialLength && forall i :: 0 <= i < SerialLength ==> IsSerialChar(t[i])
  {
    SerialRun(t) >= SerialLength
  }

  /** Text after a serial does not stop it being one. */
  lemma SerialPrefix(t: string, u: string)
    requires IsSerial(t)
    ensures IsSerial(t + u)
  {
    assert forall i :: 0 <= i < SerialLength ==> (t + u)[i] == t[i];
  }

  /** A lower-case letter among the first 25 characters rules a target out. */
  lemma LowercaseNotSerial(t: string, i: nat)
    requires i < SerialLength && i < |t| && 'a' <= t[i] <= 'z'
    ensures !IsSerial(t)
  {
    assert !IsSerialChar(t[i]);
  }

  // -----------------------------------------------------------------------
  // parse_ipaddr, select_ipaddr, parse_target
  // -----------------------------------------------------------------------

  datatype Addr = Addr(host: string, port: int)

  /** `parse_ipaddr`: no colon means the default port; exactly one colon
      splits host from a decimal port; more colons fail to unpack, and a
      port that is not a numeral fails to convert, both as ValueError. */
  function ParseIpaddr(target: string): (r: Result<Addr>)
    ensures ':' !in target ==> r == Ok(Addr(target, DefaultPort))
    ensures Count(target, ':') >= 2 ==> r == Raise(ValueError)
    ensures r.Raise? ==> r.exc == ValueError
    ensures r.Ok? ==> ':' !in r.value.host && r.value.port >= 0
  {
    if ':' in target then
      var parts := Split(target, ':');
      if |parts| != 2 then Raise(ValueError)
      else
        match ParseNumeral(parts[1])
        case None => Raise(ValueError)
        case Some(port) => Ok(Addr(parts[0], port))
    else
      Ok(Addr(target, DefaultPort))
  }

  /** With exactly one colon the host is the text before it and the port
      the numeral after it. */
  lemma ParseIpaddrOneColon(host: string, port: string)
    requires ':' !in host && ':' !in port
    ensures ParseIpaddr(host + ":" + port) ==
      if IsNumeral(port) then Ok(Addr(host, NumeralValue(port))) else Raise(ValueError)
  {
    assert host + ":" + port == host + [':'] + port;
    SplitPair(host, ':', port);
  }

  /** `host:port` as a user would type it. */
  function FormatAddr(a: Addr): string
    requires a.port >= 0
  {
    a.host + ":" + ShowNumeral(a.port)
  }

  /** Parsing a formatted address gives the address back. */
  lemma ParseFormatted(a: Addr)
    requires ':' !in a.host && a.port >= 0
    ensures ParseIpaddr(FormatAddr(a)) == Ok(a)
  {
    var digits := ShowNumeral(a.port);
    assert ':' !in digits by {
      assert forall i :: 0 <= i < |digits| ==> IsDigit(digits[i]);
    }
    ParseIpaddrOneColon(a.host, digits);
    NumeralRoundTrip(a.port);
  }

  /** One address reported by discovery. */
  datatype Candidate = Candidate(host: string, port: int)

  /** `select_ipaddr`: the first candidate's host on the default port;
      an empty list is an IndexError. */
  function SelectIpaddr(candidates: seq<Candidate>): (r: Result<Addr>)
    ensures candidates == [] <==> r == Raise(IndexError)
    ensures candidates != [] ==> r == Ok(Addr(candidates[0].host, DefaultPort))
  {
    if candidates == [] then Raise(IndexError)
    else Ok(Addr(candidates[0].host, DefaultPort))
  }

  /** The port a candidate reports, and every later candidate, are ignored. */
  lemma SelectIgnoresPort(c: Candidate, rest: seq<Candidate>, port: int, others: seq<Candidate>)
    ensures SelectIpaddr([c] + rest) == SelectIpaddr([c.(port := port)] + others)
  {
  }

  /** What the network and the robot answer for a serial target. Each
      step of the serial branch either succeeds or raises. */
  datatype Upnp = Upnp(
    found: Result<seq<Candidate>>,  // `UpnpTask(serial).remote_addrs`, or the failure of discovery
    auth: Option<Exc>,              // what `require_auth()` raises, if anything
    launch: Option<Exc>,            // what `require_robot()` raises, if anything
    kill: Option<Exc>)              // what `kill_control()` raises, if anything

  /** The steps `parse_target` and `do_kill` share for a serial: discover
      the robot, pick its address, authenticate. The first failure wins. */
  function Discovery(net: Upnp): (r: Result<Addr>)
    ensures r.Ok? <==> net.found.Ok? && net.found.value != [] && net.auth.None?
    ensures r.Ok? ==> r.value == Addr(net.found.value[0].host, DefaultPort)
    ensures net.found.Raise? ==> r == Raise(net.found.exc)
    ensures net.found == Ok([]) ==> r == Raise(IndexError)
    ensures net.found.Ok? && net.found.value != [] && net.auth.Some? ==> r == Raise(net.auth.value)
  {
    match net.found
    case Raise(e) => Raise(e)
    case Ok(candidates) =>
      match SelectIpaddr(candidates)
      case Raise(e) => Raise(e)
      case Ok(addr) => if net.auth.Some? then Raise(net.auth.value) else Ok(addr)
  }

  const AlreadyRunning := "ALREADY_RUNNING"

  /** What escapes the `try` around `require_robot()`: a `RuntimeError`
      whose first argument is `ALREADY_RUNNING` is swallowed, one with no
      argument fails on `e.args[0]` with an `IndexError`, and anything
      else is raised again. */
  function LaunchFailure(raised: Option<Exc>): (r: Option<Exc>)
    ensures r.None? <==>
      || raised.None?
      || (raised.value.RuntimeError? && raised.value.args != [] && raised.value.args[0] == AlreadyRunning)
    ensures raised == Some(RuntimeError([])) ==> r == Some(IndexError)
    ensures r.Some? && r != Some(IndexError) ==> r == raised
  {
    match raised
    case None => None
    case Some(RuntimeError(args)) =>
      if args == [] then Some(IndexError)
      else if args[0] == AlreadyRunning then None
      else raised
    case Some(_) => raised
  }

  /** How a session reaches the robot. */
  datatype Route =
    | Direct(addr: Addr)      // an address; no key object, no discovery
    | Discovered(addr: Addr)  // the address discovery picked, with the key it reported

  /** `parse_target`: a serial goes through discovery, authentication and
      launch; anything else is parsed as an address. */
  function ParseTarget(target: string, net: Upnp): (r: Result<Route>)
    ensures r.Ok? ==> (r.value.Discovered? <==> IsSerial(target))
    ensures !IsSerial(target) ==> (r.Ok? <==> ParseIpaddr(target).Ok?)
    ensures !IsSerial(target) && r.Ok? ==> r.value == Direct(ParseIpaddr(target).value)
    ensures !IsSerial(target) && r.Raise? ==> r.exc == ValueError
    ensures IsSerial(target) ==> (r.Ok? <==> Discovery(net).Ok? && LaunchFailure(net.launch).None?)
    ensures IsSerial(target) && r.Ok? ==> r.value == Discovered(Discovery(net).value)
    ensures IsSerial(target) && Discovery(net).Raise? ==> r == Raise(Discovery(net).exc)
    ensures IsSerial(target) && Discovery(net).Ok? && LaunchFailure(net.launch).Some? ==>
      r == Raise(LaunchFailure(net.launch).value)
  {
    if IsSerial(target) then
      match Discovery(net)
      case Raise(e) => Raise(e)
      case Ok(addr) =>
        match LaunchFailure(net.launch)
        case Some(e) => Raise(e)
        case None => Ok(Discovered(addr))
    else
      match ParseIpaddr(target)
      case Ok(addr) => Ok(Direct(addr))
      case Raise(e) => Raise(e)
  }

  /** An address never touches the network: its route is the same
      whatever discovery would have answered. */
  lemma AddressIgnoresNetwork(target: string, net: Upnp, other: Upnp)
    requires !IsSerial(target)
    ensures ParseTarget(target, net) == ParseTarget(target, other)
  {
  }

  /** A robot that is already running still gives a route. */
  lemma AlreadyRunningResolves(target: string, net: Upnp, more: seq<string>)
    requires IsSerial(target) && Discovery(net).Ok?
    requires net.launch == Some(RuntimeError([AlreadyRunning] + more))
    ensures ParseTarget(target, net) == Ok(Discovered(Addr(net.found.value[0].host, DefaultPort)))
  {
    assert ([AlreadyRunning] + more)[0] == AlreadyRunning;
  }

  // -----------------------------------------------------------------------
  // do_kill
  // -----------------------------------------------------------------------

  const KillNeedsSerial := "Kill must give serial, not IP addr"

  /** The kill signal `do_kill` sends, to the robot with that serial at
      that address. */
  datatype KillRequest = KillRequest(serial: string, addr: Addr)

  /** `do_kill`: only a serial can be killed; an address raises before
      anything is sent. A serial is discovered and authenticated first,
      and each of those steps, like the kill itself, can raise. */
  function DoKill(target: string, net: Upnp): (r: Result<KillRequest>)
    ensures !IsSerial(target) ==> r == Raise(RuntimeError([KillNeedsSerial]))
    ensures r.Ok? <==> IsSerial(target) && Discovery(net).Ok? && net.kill.None?
    ensures r.Ok? ==> r.value == KillRequest(target, Discovery(net).value)
    ensures IsSerial(target) && Discovery(net).Raise? ==> r == Raise(Discovery(net).exc)
    ensures IsSerial(target) && Discovery(net).Ok? && net.kill.Some? ==> r == Raise(net.kill.value)
  {
    if IsSerial(target) then
      match Discovery(net)
      case Raise(e) => Raise(e)
      case Ok(addr) => if net.kill.Some? then Raise(net.kill.value) else Ok(KillRequest(target, addr))
    else
      Raise(RuntimeError([KillNeedsSerial]))
  }

  /** A kill is sent only to a robot that accepted authentication, and
      never depends on whether the robot would launch. */
  lemma KillAfterAuth(target: string, net: Upnp, launch: Option<Exc>)
    requires DoKill(target, net).Ok?
    ensures net.auth.None? && net.found.Ok? && net.found.value != []
    ensures DoKill(target, net.(launch := launch)) == DoKill(target, net)
  {
  }

  // -----------------------------------------------------------------------
  // robot_shell_reciver
  // -----------------------------------------------------------------------

  /** One `recv` of the primary connection, already decoded: some bytes,
      or the empty read that means the connection closed. */
  datatype Read = Chunk(text: string) | Closed

  const Disconnected := "Disconnected!!\n"

  /** What the receiver appended to the log, how many reads it consumed,
      and whether it saw the connection close. */
  datatype Reception = Reception(log: string, consumed: nat, closed: bool)

  /** The log line of one chunk: NUL padding stripped from both ends,
      then a newline. */
  function ChunkLine(text: string): (line: string)
    ensures |line| >= 1 && line[|line| - 1] == '\n'
    ensures line == "\n" || (line[0] != '\0' && line[|line| - 2] != '\0')
    ensures var i, m := StripOffset(text, {'\0'}), |line| - 1;
      && i + m <= |text| && text[i..i + m] == line[..m]
      && (forall k :: 0 <= k < i ==> text[k] == '\0')
      && (forall k :: i + m <= k < |text| ==> text[k] == '\0')
  {
    var m := Strip(text, {'\0'});
    StrippedLine(text, m);
    m + "\n"
  }

  lemma StrippedLine(text: string, m: string)
    requires m == Strip(text, {'\0'})
    ensures var i, line := StripOffset(text, {'\0'}), m + "\n";
      && i + |m| <= |text| && text[i..i + |m|] == line[..|m|]
      && (forall k :: 0 <= k < i ==> text[k] == '\0')
      && (forall k :: i + |m| <= k < |text| ==> text[k] == '\0')
  {
    assert (m + "\n")[..|m|] == m;
  }

  /** `robot_shell_reciver` over a finite sequence of reads, with the line
      written for each chunk given by `render`; the receiver itself uses
      `ChunkLine`. */
  function Receive(feed: seq<Read>, render: string -> string): (r: Reception)
    ensures r.closed <==> Closed in feed
    ensures r.consumed <= |feed|
    decreases |feed|
  {
    if feed == [] then Reception("", 0, false)
    else
      match feed[0]
      case Closed => Reception(Disconnected, 1, true)
      case Chunk(text) =>
        var rest := Receive(feed[1..], render);
        Reception(render(text) + rest.log, rest.consumed + 1, rest.closed)
  }

  /** The receiver consumes every read when the connection stays open,
      and otherwise stops right after the first empty read. */
  lemma {:induction false} ReceiveConsumed(feed: seq<Read>, render: string -> string)
    ensures var r := Receive(feed, render);
      && (!r.closed ==> r.consumed == |feed|)
      && (r.closed ==>
            1 <= r.consumed && feed[r.consumed - 1] == Closed && Closed !in feed[..r.consumed - 1])
    decreases |feed|
  {
    if feed != [] && feed[0].Chunk? {
      var rest := Receive(feed[1..], render);
      ReceiveConsumed(feed[1..], render);
      if rest.closed {
        assert feed[..rest.consumed + 1][1..] == feed[1..][..rest.consumed];
      }
    }
  }

  /** Unfolding the receiver by one chunk. */
  lemma ReceiveChunk(text: string, rest: seq<Read>, render: string -> string)
    ensures Receive([Chunk(text)] + rest, render) ==
      Reception(render(text) + Receive(rest, render).log,
                Receive(rest, render).consumed + 1, Receive(rest, render).closed)
  {
    assert ([Chunk(text)] + rest)[1..] == rest;
  }

  /** Reads before the connection closes append their lines in order. */
  lemma {:induction false} ReceiveAppend(a: seq<Read>, b: seq<Read>, render: string -> string)
    requires Closed !in a
    ensures Receive(a + b, render).log == Receive(a, render).log + Receive(b, render).log
    ensures Receive(a + b, render).consumed == |a| + Receive(b, render).consumed
    ensures Receive(a + b, render).closed == Receive(b, render).closed
    decreases |a|
  {
    if a == [] {
      assert a + b == b;
    } else {
      assert a[0] in a;
      var text := a[0].text;
      var tail := a[1..];
      assert Closed !in tail;
      ReceiveAppend(tail, b, render);
      assert a + b == [Chunk(text)] + (tail + b);
      ReceiveChunk(text, tail + b, render);
      assert a == [Chunk(text)] + tail;
      ReceiveChunk(text, tail, render);
    }
  }

  /** Nothing after the first empty read is processed, and the log ends
      with the disconnect notice. */
  lemma ReceiveStopsAtClose(a: seq<Read>, b: seq<Read>, render: string -> string)
    requires Closed !in a
    ensures Receive(a + [Closed] + b, render) ==
      Reception(Receive(a, render).log + Disconnected, |a| + 1, true)
  {
    assert a + [Closed] + b == a + ([Closed] + b);
    ReceiveAppend(a, [Closed] + b, render);
  }

  /** A sequence cut around its `n`-th element. */
  lemma CutAt<T>(s: seq<T>, n: nat)
    requires 1 <= n <= |s|
    ensures s[..n] == s[..n - 1] + [s[n - 1]]
    ensures s == s[..n - 1] + [s[n - 1]] + s[n..]
  {
  }

  /** The reads up to and including the first close decide the result. */
  lemma ReceiveUpToClose(feed: seq<Read>, n: nat, render: string -> string)
    requires 1 <= n <= |feed| && feed[n - 1] == Closed && Closed !in feed[..n - 1]
    ensures Receive(feed, render) == Receive(feed[..n], render)
  {
    var before := feed[..n - 1];
    var prefix := feed[..n];
    var rest := feed[n..];
    CutAt(feed, n);
    ReceiveStopsAtClose(before, rest, render);
    ReceiveStopsAtClose(before, [], render);
    assert before + [Closed] + [] == prefix;
  }

  /** What one more read adds to the log. */
  function Entry(next: Read, render: string -> string): string {
    match next
    case Chunk(text) => render(text)
    case Closed => Disconnected
  }

  /** One more read, while the connection is still open. */
  lemma ReceiveStep(prefix: seq<Read>, next: Read, render: string -> string)
    requires Closed !in prefix
    ensures Receive(prefix + [next], render).log == Receive(prefix, render).log + Entry(next, render)
  {
    ReceiveAppend(prefix, [next], render);
    if next.Chunk? {
      assert [next] == [Chunk(next.text)] + [];
      ReceiveChunk(next.text, [], render);
    }
  }

  /** The receiver loop itself, reading until the connection closes or
      the reads run out. */
  method Receiver(feed: seq<Read>) returns (log: string, closed: bool)
    ensures log == Receive(feed, ChunkLine).log && closed == Receive(feed, ChunkLine).closed
  {
    log := "";
    closed := false;
    var i := 0;
    while i < |feed| && !closed
      invariant 0 <= i <= |feed|
      invariant closed <==> Closed in feed[..i]
      invariant closed ==> i >= 1 && feed[i - 1] == Closed && Closed !in feed[..i - 1]
      invariant log == Receive(feed[..i], ChunkLine).log
      decreases |feed| - i
    {
      var next := feed[i];
      CutAt(feed, i + 1);
      ReceiveStep(feed[..i], next, ChunkLine);
      match next {
        case Chunk(text) =>
          log := log + ChunkLine(text);
        case Closed =>
          log := log + Disconnected;
          closed := true;
      }
      i := i + 1;
    }
    if closed {
      ReceiveUpToClose(feed, i, ChunkLine);
    } else {
      assert feed[..i] == feed;
    }
  }

  // -----------------------------------------------------------------------
  // main
  // -----------------------------------------------------------------------

  datatype Options = Options(target: string, kill: bool, ipython: bool, simple: bool)

  datatype FrontEnd = KillDevice | IPythonShell | SimpleShell | RobotShell

  /** `main`: `--kill` wins over `--ipython`, which wins over `--simple`;
      with none of them the console shell runs. */
  function ChooseFrontEnd(o: Options): (f: FrontEnd)
    ensures f == KillDevice <==> o.kill
    ensures f == IPythonShell <==> !o.kill && o.ipython
    ensures f == SimpleShell <==> !o.kill && !o.ipython && o.simple
    ensures f == RobotShell <==> !o.kill && !o.ipython && !o.simple
  {
    if o.kill then KillDevice
    else if o.ipython then IPythonShell
    else if o.simple then SimpleShell
    else RobotShell
  }

  /** How the process ends: `main` returns a status, an exception escapes
      it, or the simple shell keeps reading standard input. */
  datatype Exit = Returns(status: int) | Escapes(exc: Exc) | Serves

  /** The end of `main` for the chosen front end. The console shell
      catches every failure of the target; the others let it escape.
      The console shell's `Returns(0)` describes how it ends when it
      ends: its read loop runs until an exception, which it catches. */
  function MainExit(o: Options, net: Upnp): (e: Exit)
    ensures e.Returns? ==> e.status == 0
    ensures o.kill ==> (e.Escapes? <==> DoKill(o.target, net).Raise?)
    ensures o.kill && e.Escapes? ==> e.exc == DoKill(o.target, net).exc
    ensures o.kill && !IsSerial(o.target) ==> e == Escapes(RuntimeError([KillNeedsSerial]))
    ensures ChooseFrontEnd(o) == RobotShell ==> e == Returns(0)
    ensures ChooseFrontEnd(o) == IPythonShell && ParseTarget(o.target, net).Ok? ==> e == Returns(0)
    ensures ChooseFrontEnd(o) in {IPythonShell, SimpleShell} ==>
      (e.Escapes? <==> ParseTarget(o.target, net).Raise?)
    ensures ChooseFrontEnd(o) == SimpleShell && ParseTarget(o.target, net).Ok? ==> e == Serves
  {
    match ChooseFrontEnd(o)
    case KillDevice =>
      (match DoKill(o.target, net)
       case Ok(_) => Returns(0)
       case Raise(x) => Escapes(x))
    case IPythonShell =>
      (match ParseTarget(o.target, net)
       case Ok(_) => Returns(0)
       case Raise(x) => Escapes(x))
    case SimpleShell =>
      (match ParseTarget(o.target, net)
       case Ok(_) => Serves
       case Raise(x) => Escapes(x))
    case RobotShell => Returns(0)
  }
}

=== FILE: runtime.dfy ===
/** The few Python runtime notions the model needs: optional values,
    the exception kinds the console distinguishes, and a call that
    either returns a value or raises. */
module Runtime {

  datatype Option<T> = None | Some(value: T)

  /** An exception as the console sees it. Only `RuntimeError` is caught
      by the command dispatcher; every other kind escapes it. A subclass
      of `RuntimeError` (such as `NotImplementedError`) is caught too, and
      is modelled as `RuntimeError(args)`, and likewise a subclass of
      `ValueError` (such as `UnicodeError`) as `ValueError`; `OtherError`
      names an exception outside both hierarchies. */
  datatype Exc =
    | RuntimeError(args: seq<string>)
    | ValueError
    | TypeError       // a handler called with the wrong number of arguments
    | IndexError      // `shlex.split(...)[0]` on an argument with no token
    | AttributeError  // a method called on `None`
    | OtherError(name: string)

  /** The result of a Python call: a returned value or a raised exception. */
  datatype Result<T> = Ok(value: T) | Raise(exc: Exc)
}

=== FILE: text.dfy ===
/** The Python string operations the console and the command-line tool
    rely on, each characterised by what it computes rather than how. */
module Text {
  import opened Runtime

  predicate StartsWith(s: string, prefix: string) {
    |prefix| <= |s| && s[..|prefix|] == prefix
  }

  predicate EndsWith(s: string, suffix: string) {
    |suffix| <= |s| && s[|s| - |suffix|..] == suffix
  }

  /** Number of occurrences of `c` in `s`. */
  function Count(s: string, c: char): nat {
    multiset(s)[c]
  }

  /** Position of the first occurrence of `c` in `s`. */
  function IndexOf(s: string, c: char): (i: nat)
    requires c in s
    ensures i < |s| && s[i] == c
    ensures c !in s[..i]
  {
    if s[0] == c then 0
    else
      var j := IndexOf(s[1..], c);
      assert s[..j + 1] == [s[0]] + s[1..][..j];
      j + 1
  }

  // ---------------------------------------------------------------------
  // str.split(sep, 1) and str.split(sep)
  // ---------------------------------------------------------------------

  /** `s.split(sep, 1)`: the text before the first `sep` and, when there
      is one, the text after it. */
  function SplitOnce(s: string, sep: char): (parts: seq<string>)
    ensures 1 <= |parts| <= 2
    ensures |parts| == 1 <==> sep !in s
    ensures |parts| == 1 ==> parts[0] == s
    ensures |parts| == 2 ==> s == parts[0] + [sep] + parts[1] && sep !in parts[0]
  {
    if sep in s then
      var i := IndexOf(s, sep);
      assert s == s[..i] + [sep] + s[i + 1..];
      [s[..i], s[i + 1..]]
    else
      [s]
  }

  /** A separator-free head followed by the separator splits back into
      that head and the remainder. */
  lemma SplitOnceAt(head: string, sep: char, rest: string)
    requires sep !in head
    ensures SplitOnce(head + [sep] + rest, sep) == [head, rest]
  {
    var s := head + [sep] + rest;
    assert s[|head|] == sep;
    var parts := SplitOnce(s, sep);
    assert forall i :: 0 <= i < |head| ==> s[i] == head[i];
    assert forall i :: 0 <= i < |parts[0]| ==> s[i] == parts[0][i];
    assert |parts[0]| == |head|;
    assert parts[0] == s[..|head|] == head;
    assert parts[1] == s[|head| + 1..] == rest;
  }

  /** The inverse of `Split`: the parts glued back with `sep` between them. */
  function JoinWith(parts: seq<string>, sep: char): string
    requires |parts| >= 1
  {
    if |parts| == 1 then parts[0] else parts[0] + [sep] + JoinWith(parts[1..], sep)
  }

  /** `s.split(sep)` with an explicit one-character separator: empty
      pieces are kept, so there is always one more piece than there are
      separators. */
  function Split(s: string, sep: char): (parts: seq<string>)
    ensures |parts| >= 1
    ensures forall k :: 0 <= k < |parts| ==> sep !in parts[k]
    ensures JoinWith(parts, sep) == s
    ensures |parts| == Count(s, sep) + 1
    decreases |s|
  {
    if sep in s then
      var i := IndexOf(s, sep);
      var rest := Split(s[i + 1..], sep);
      assert s == s[..i] + [sep] + s[i + 1..];
      assert multiset(s) == multiset(s[..i]) + multiset([sep]) + multiset(s[i + 1..]);
      assert ([s[..i]] + rest)[1..] == rest;
      [s[..i]] + rest
    else
      [s]
  }

  /** A separator-free head and tail around one separator split into
      exactly those two pieces. */
  lemma SplitPair(head: string, sep: char, tail: string)
    requires sep !in head && sep !in tail
    ensures Split(head + [sep] + tail, sep) == [head, tail]
  {
    var s := head + [sep] + tail;
    assert s[|head|] == sep;
    var i := IndexOf(s, sep);
    assert forall k :: 0 <= k < |head| ==> s[k] == head[k];
    assert s[..i] == s[..|head|] == head;
    assert s[i + 1..] == tail;
  }

  // ---------------------------------------------------------------------
  // shlex.split, as a quote-free whitespace tokenizer
  // ---------------------------------------------------------------------

  /** The characters `shlex` treats as whitespace. */
  predicate IsBlank(c: char) {
    c == ' ' || c == '\t' || c == '\r' || c == '\n'
  }

  /** A token: non-empty and free of whitespace. */
  predicate IsWord(w: string) {
    w != [] && forall i :: 0 <= i < |w| ==> !IsBlank(w[i])
  }

  /** Length of the longest whitespace-free prefix of `s`. */
  function WordLength(s: string): (n: nat)
    ensures n <= |s|
    ensures forall i :: 0 <= i < n ==> !IsBlank(s[i])
    ensures n < |s| ==> IsBlank(s[n])
  {
    if s == [] || IsBlank(s[0]) then 0 else 1 + WordLength(s[1..])
  }

  /** Length of the leading run of whitespace in `s`. */
  function BlankRun(s: string): (n: nat)
    ensures n <= |s|
    ensures forall i :: 0 <= i < n ==> IsBlank(s[i])
    ensures n < |s| ==> !IsBlank(s[n])
  {
    if s == [] || !IsBlank(s[0]) then 0 else 1 + BlankRun(s[1..])
  }

  /** `shlex.split(s)` for input without quotes, escapes or comments:
      the maximal whitespace-free runs of `s`, in order. */
  function Tokens(s: string): (ts: seq<string>)
    ensures forall k :: 0 <= k < |ts| ==> IsWord(ts[k])
    decreases |s|
  {
    if s == [] then []
    else if IsBlank(s[0]) then Tokens(s[1..])
    else
      var n := WordLength(s);
      [s[..n]] + Tokens(s[n..])
  }

  /** Tokens joined by single spaces: the inverse of `Tokens`. */
  function Unwords(ts: seq<string>): string {
    if ts == [] then [] else if |ts| == 1 then ts[0] else ts[0] + " " + Unwords(ts[1..])
  }

  lemma WordLengthOfWord(w: string, rest: string)
    requires IsWord(w)
    requires rest == [] || IsBlank(rest[0])
    ensures WordLength(w + rest) == |w|
  {
    assert forall i :: 0 <= i < |w| ==> (w + rest)[i] == w[i];
    assert |w| < |w + rest| ==> (w + rest)[|w|] == rest[0];
  }

  /** Splitting the space-joined tokens gives the tokens back. */
  lemma {:induction false} TokensUnwords(ts: seq<string>)
    requires forall k :: 0 <= k < |ts| ==> IsWord(ts[k])
    ensures Tokens(Unwords(ts)) == ts
    decreases |ts|
  {
    if ts == [] {
    } else if |ts| == 1 {
      WordLengthOfWord(ts[0], []);
      assert ts[0] + [] == ts[0];
      assert ts[0][|ts[0]|..] == [];
    } else {
      var tail := Unwords(ts[1..]);
      var s := ts[0] + " " + tail;
      WordLengthOfWord(ts[0], " " + tail);
      assert ts[0] + (" " + tail) == s;
      assert s[|ts[0]|..] == " " + tail;
      assert (" " + tail)[1..] == tail;
      TokensUnwords(ts[1..]);
      assert s[..|ts[0]|] == ts[0];
      assert ts == [ts[0]] + ts[1..];
    }
  }

  /** The first token is the run that follows the leading whitespace. */
  lemma {:induction false} FirstTokenAt(s: string)
    requires Tokens(s) != []
    ensures var i, w := BlankRun(s), Tokens(s)[0];
      && i + |w| <= |s| && s[i..i + |w|] == w
      && (i + |w| == |s| || IsBlank(s[i + |w|]))
    decreases |s|
  {
    if IsBlank(s[0]) {
      assert Tokens(s) == Tokens(s[1..]);
      assert BlankRun(s) == 1 + BlankRun(s[1..]);
      FirstTokenAt(s[1..]);
      var i, w := BlankRun(s), Tokens(s)[0];
      SliceAfterFirst(s, i, i + |w|);
    } else {
      assert Tokens(s)[0] == s[..WordLength(s)];
      assert BlankRun(s) == 0;
    }
  }

  /** A slice of `s[1..]` is the slice of `s` one place further on. */
  lemma SliceAfterFirst(s: string, i: nat, j: nat)
    requires 1 <= i <= j <= |s|
    ensures s[1..][i - 1..j - 1] == s[i..j]
  {
  }

  lemma OneToken(w: string)
    requires IsWord(w)
    ensures Tokens(w) == [w]
  {
    TokensUnwords([w]);
  }

  lemma TwoTokens(a: string, b: string)
    requires IsWord(a) && IsWord(b)
    ensures Tokens(a + " " + b) == [a, b]
  {
    TokensUnwords([a, b]);
    assert Unwords([a, b]) == a + " " + Unwords([b]);
  }

  /** A string has no token exactly when it is all whitespace. */
  lemma {:induction false} TokensEmpty(s: string)
    ensures Tokens(s) == [] <==> forall i :: 0 <= i < |s| ==> IsBlank(s[i])
    decreases |s|
  {
    if s != [] && IsBlank(s[0]) {
      TokensEmpty(s[1..]);
      assert forall i :: 1 <= i < |s| ==> s[i] == s[1..][i - 1];
    }
  }

  // ---------------------------------------------------------------------
  // str.rstrip() and str.strip(chars)
  // ---------------------------------------------------------------------

  /** The characters Python's argument-less `str.strip` family removes
      (those for which `str.isspace` holds). */
  const PyWhitespace: set<char> := {
    '\t', '\n', '\U{0B}', '\U{0C}', '\r', '\U{1C}', '\U{1D}', '\U{1E}', '\U{1F}', ' ',
    '\U{85}', '\U{A0}', '\U{1680}',
    '\U{2000}', '\U{2001}', '\U{2002}', '\U{2003}', '\U{2004}', '\U{2005}',
    '\U{2006}', '\U{2007}', '\U{2008}', '\U{2009}', '\U{200A}',
    '\U{2028}', '\U{2029}', '\U{202F}', '\U{205F}', '\U{3000}'
  }

  /** `s` with every trailing character from `drop` removed. */
  function TrimEnd(s: string, drop: set<char>): (r: string)
    ensures |r| <= |s| && r == s[..|r|]
    ensures r == [] || r[|r| - 1] !in drop
    ensures forall i :: |r| <= i < |s| ==> s[i] in drop
    decreases |s|
  {
    if s != [] && s[|s| - 1] in drop then TrimEnd(s[..|s| - 1], drop) else s
  }

  /** `s` with every leading character from `drop` removed. */
  function TrimStart(s: string, drop: set<char>): (r: string)
    ensures |r| <= |s| && r == s[|s| - |r|..]
    ensures r == [] || r[0] !in drop
    ensures forall i :: 0 <= i < |s| - |r| ==> s[i] in drop
    decreases |s|
  {
    if s != [] && s[0] in drop then TrimStart(s[1..], drop) else s
  }

  /** How many characters `Strip(s, drop)` peels off the front of `s`. */
  function StripOffset(s: string, drop: set<char>): nat {
    |s| - |TrimStart(s, drop)|
  }

  /** `s.strip(chars)`: the middle of `s` left once the characters of
      `drop` are peeled off both ends. */
  function Strip(s: string, drop: set<char>): (r: string)
    ensures StripOffset(s, drop) + |r| <= |s|
    ensures s[StripOffset(s, drop)..StripOffset(s, drop) + |r|] == r
    ensures forall i :: 0 <= i < StripOffset(s, drop) ==> s[i] in drop
    ensures forall i :: StripOffset(s, drop) + |r| <= i < |s| ==> s[i] in drop
    ensures r == [] || (r[0] !in drop && r[|r| - 1] !in drop)
  {
    var t := TrimStart(s, drop);
    var r := TrimEnd(t, drop);
    StripParts(s, t, r, drop);
    r
  }

  lemma StripParts(s: string, t: string, r: string, drop: set<char>)
    requires |t| <= |s| && t == s[|s| - |t|..]
    requires |r| <= |t| && r == t[..|r|]
    requires forall i :: |r| <= i < |t| ==> t[i] in drop
    ensures s[|s| - |t|..|s| - |t| + |r|] == r
    ensures forall i :: |s| - |t| + |r| <= i < |s| ==> s[i] in drop
  {
    var a := |s| - |t|;
    forall i | a + |r| <= i < |s|
      ensures s[i] in drop
    {
      assert s[i] == t[i - a];
    }
  }

  // ---------------------------------------------------------------------
  // os.path.join on POSIX
  // ---------------------------------------------------------------------

  /** `os.path.join(a, b)`: an absolute `b` replaces `a`; otherwise `b`
      is appended, with a `/` inserted unless `a` is empty or already
      ends in one. */
  function PathJoin(a: string, b: string): (p: string)
    ensures EndsWith(p, b)
    ensures !StartsWith(b, "/") ==> StartsWith(p, a)
    ensures !StartsWith(b, "/") && a != [] && !EndsWith(a, "/") ==> p == a + "/" + b
    ensures !StartsWith(b, "/") && (a == [] || EndsWith(a, "/")) ==> p == a + b
    ensures StartsWith(b, "/") ==> p == b
  {
    if StartsWith(b, "/") then b
    else if a == [] || EndsWith(a, "/") then a + b
    else a + "/" + b
  }

  // ---------------------------------------------------------------------
  // Decimal numerals, for int(text) restricted to plain digit strings
  // ---------------------------------------------------------------------

  predicate IsDigit(c: char) { '0' <= c <= '9' }

  predicate IsNumeral(s: string) {
    s != [] && forall i :: 0 <= i < |s| ==> IsDigit(s[i])
  }

  function DigitValue(c: char): (d: nat)
    requires IsDigit(c)
    ensures d < 10
  {
    c as int - '0' as int
  }

  function DigitChar(d: nat): (c: char)
    requires d < 10
    ensures IsDigit(c) && DigitValue(c) == d
  {
    ('0' as int + d) as char
  }

  /** The value of a string of decimal digits, most significant first. */
  function NumeralValue(s: string): nat
    requires forall i :: 0 <= i < |s| ==> IsDigit(s[i])
  {
    if s == [] then 0 else 10 * NumeralValue(s[..|s| - 1]) + DigitValue(s[|s| - 1])
  }

  /** `int(s)` for a non-empty string of ASCII digits; anything else
      is a failure. */
  function ParseNumeral(s: string): (r: Option<nat>)
    ensures r.Some? <==> IsNumeral(s)
  {
    if IsNumeral(s) then Some(NumeralValue(s)) else None
  }

  /** `str(n)` for a natural number. */
  function ShowNumeral(n: nat): (s: string)
    ensures IsNumeral(s)
  {
    if n < 10 then [DigitChar(n)] else ShowNumeral(n / 10) + [DigitChar(n % 10)]
  }

  /** Printing a number and parsing it back gives the number. */
  lemma {:induction false} NumeralRoundTrip(n: nat)
    ensures ParseNumeral(ShowNumeral(n)) == Some(n)
  {
    NumeralValueOfShow(n);
  }

  lemma {:induction false} NumeralValueOfShow(n: nat)
    ensures NumeralValue(ShowNumeral(n)) == n
  {
    var s := ShowNumeral(n);
    if n < 10 {
      assert s[..|s| - 1] == [];
    } else {
      NumeralValueOfShow(n / 10);
      assert s[..|s| - 1] == ShowNumeral(n / 10);
    }
  }
}
